=== FILE: README.md ===
# LR3_CSaN chat relay — a verified Dafny model

LR3_CSaN is a console chat program in C#. One process runs as the relay
(`ChatServer`), the others as peers (`ChatClient`). A peer connects over a
stream (TCP) socket and sends a handshake frame `UDP_PORT:<port>:NAME:<name>`.
The relay records the peer's datagram (UDP) endpoint and announces the peer
over datagram to every registered endpoint. It then relays every later
stream frame to all other connected peers. When the connection ends, the
relay announces the departure and removes the peer. Each peer takes a
loopback address `127.0.0.<n>` from a counter kept in a file. The relay
resets that counter when it starts.

This project models that core:

- `text.dfy` (module `Text`): the .NET string and integer operations the
  relay relies on. These are ordinal `StartsWith`, `IndexOf`,
  `String.Split` with one string separator, `int.Parse`/`int.TryParse`
  with the default number style, `int.ToString()`, and unchecked 32-bit
  increment.
- `lists.dfy` (module `Lists`): `List.Remove`, `List.RemoveAll`, and the
  filtering used to pick broadcast targets.
- `handshake.dfy` (module `Handshake`): the handshake parser and the two
  frame formats, with the round-trip lemma.
- `counter.dfy` (module `ClientCounter`): the address counter. The file is
  an `Option<string>`: `None` means the file does not exist.
- `relay.dfy` (module `Relay`): the values the relay works on (endpoints,
  clients, its two lists, what went out on the wire). It also holds one
  specification function per step of the relay, and the lemmas about
  those steps and their composition.
- `server.dfy` (module `Server`): `ChatServer` as a class. Its fields
  `tcpClients` and `udpEndPoints` are the relay's two lists, reassigned
  in place. Every method except the constructor and `AcceptTcpClient`
  is proved equal to its `Relay` specification function, so the `Relay`
  lemmas hold of the class. Those two state the new lists directly:
  both empty, and the new client appended. A class invariant `Valid()`
  says that no client is listed twice. The constructor establishes it,
  and every method that changes `tcpClients` keeps it.

The model is sequential. Each `lock` block is one atomic step, and one
connection handler runs from its first read to its `finally` with no other
handler in between. The network is a parameter:

- the frames a connection's reads return: a sequence of non-empty texts,
  after which every read returns 0 bytes (a read that throws ends the
  handler's `try` the same way, so it too ends the sequence);
- which clients report `Connected`;
- which stream writes throw;
- which datagram sends throw;
- whether reading the client socket's `RemoteEndPoint` in the `finally`
  throws (`closedRemoteThrows`, see below).

## Behaviour as written

The model follows the code, including where the code does not do what the
design of a chat registry would lead one to expect:

- A connection joins `_tcpClients` when it is accepted, before any
  handshake. A first frame that is not a handshake registers no endpoint
  and announces nothing. The connection still stays in the stream list,
  and all its later frames are relayed like chat messages.
  `UnregisteredClientRelays` states this.
- `clientInfo` is set whenever the first read returned data, so the
  teardown also runs after a frame that was not a handshake, and after a
  port that `int.Parse` rejects. A connection whose first read returns
  0 bytes never runs the teardown, so it stays in `_tcpClients`
  (`SilentClientStaysListed`).
- The teardown removes the client from `_tcpClients` and then reads
  `client.Client.RemoteEndPoint` (Program.cs:149). By then the `using`
  block has disposed the stream, and `GetStream()`'s stream owns the
  socket, so in .NET that read throws `ObjectDisposedException`. The
  `RemoveAll` at Program.cs:150-152 is then never reached, and no endpoint
  is ever removed, even when the datagram port equals the stream port
  (`EndPointsNeverRemoved`). The model keeps both outcomes through the
  `closedRemoteThrows` flag of `Transport`. When the read does not throw,
  the removal matches the stream address and stream port, while the
  endpoint recorded at the handshake carries the datagram port, so it
  still stays unless the two ports are equal (`OrphanedEndPoint`).
  `RemoveEndPointsDropsRemote`, the second clause of
  `TeardownRemovesClient` and the endpoint clause of
  `UnregisteredClientRelays` describe Program.cs:149-152 as read, under
  `!closedRemoteThrows`.
- The departure notice goes out before the removal, so a leaving peer is
  sent the notice of its own departure (`LeaverHearsOwnDeparture`).
- `BroadcastUdp` has no `try`/`catch`. A send that throws ends the
  broadcast. In the handshake this ends the handler's `try` before the read
  loop. In the `finally` it skips the removal.
- A port outside 0..65535 makes the `IPEndPoint` constructor throw. This
  takes the same path as a port text `int.Parse` rejects.
- The counter increment is unchecked, so `int.MaxValue` wraps to
  `int.MinValue`. The address is then `127.0.0.-2147483648`. Two
  consecutive allocations still differ.
- The parser takes a first frame shaped like the chat line
  `UDP_PORT: <port>:NAME:<name>` for a handshake, because `int.Parse` skips
  the blank (`ChatFrameAsHandshake`). Only a connection's first frame is
  parsed, and `ChatClient` sends its handshake first, so this concerns a
  client other than `ChatClient` that opens with such a line.

## Model

| member | source | states |
|---|---|---|
| Text.Wrap32 | LR3_CSaN/Program.cs:271 | the result is an `int`, congruent to the input modulo 2^32, and equal to the input when that is already an `int` |
| Text.IndexFrom | LR3_CSaN/Program.cs:112 | the result is the leftmost occurrence of the pattern at or after the start index, or none when no occurrence exists |
| Text.Split | LR3_CSaN/Program.cs:112 | the parts are never empty as a list; joining them with the separator gives back the frame; no part contains the separator; there is one part exactly when the frame holds no separator; and each cut is at the leftmost separator after the previous one |
| Text.NatToDigits | LR3_CSaN/Program.cs:275 | the text is one or more decimal digits whose value is the number, with no leading zero |
| Text.IntToString | LR3_CSaN/Program.cs:269 | the text is non-empty, starts with a digit or '-', continues with digits only, and starts with '-' exactly when the number is negative |
| Text.IntToStringValue | LR3_CSaN/Program.cs:269 | the digits read back as the number (as its magnitude after the '-' for a negative number), with no leading zero |
| Text.ParseInt32 | LR3_CSaN/Program.cs:116 | a parsed value is always an `int`, and a text of white space only gives none (where `int.Parse` throws) |
| Text.ParseDigits | LR3_CSaN/Program.cs:116 | a plain run of decimal digits whose value fits an `int` parses to that value |
| Text.ParseSignedText | LR3_CSaN/Program.cs:116 | white space, an optional `-` or `+`, one or more digits and white space parse to the signed value of the digits when it fits an `int`, and to none (an OverflowException) when it does not |
| Text.RejectsOverflow | LR3_CSaN/Program.cs:116 | a digit run whose value exceeds `int.MaxValue` does not parse (an OverflowException) |
| Text.RejectsStrayChar | LR3_CSaN/Program.cs:116 | a text holding any character that is not white space, a digit, `-` or `+` does not parse (a FormatException) |
| Text.ParseAcceptsOnlySignedDigits | LR3_CSaN/Program.cs:116 | the converse: a text that parses is, once trimmed of white space, one or more digits with at most one leading sign |
| Text.TrimStartSkips | LR3_CSaN/Program.cs:116 | trimming the front drops exactly the leading white space before a non-white character |
| Text.TrimEndSkips | LR3_CSaN/Program.cs:116 | trimming the end drops exactly the trailing white space after a non-white character |
| Text.StartsWith | LR3_CSaN/Program.cs:114 | the frame begins with the given prefix, compared character by character |
| Text.TrimStart | LR3_CSaN/Program.cs:258 | the result is a suffix of the input; everything cut off is white space; and the result does not start with white space |
| Text.TrimEnd | LR3_CSaN/Program.cs:258 | the result is a prefix of the input; everything cut off is white space; and the result does not end with white space |
| Text.ParseFormatRoundTrip | LR3_CSaN/Program.cs:258-275 | `int.TryParse` of the text `ToString` writes for any `int` gives back that `int` |
| Text.LeadingSpaceIgnored | LR3_CSaN/Program.cs:116 | a blank in front of a number does not change what `int.Parse` reads |
| Text.IntToStringDistinct | LR3_CSaN/Program.cs:269 | distinct `int`s format to distinct texts |
| Lists.Filter | LR3_CSaN/Program.cs:170-172 | the result holds every element of the input that satisfies the predicate, as often as the input holds it, in input order, and nothing else |
| Lists.RemoveAll | LR3_CSaN/Program.cs:150-152 | every element matching the predicate is gone; every other element keeps its count; and the order is kept |
| Lists.FirstIndex | LR3_CSaN/Program.cs:148 | the index of the first element equal to the given one; the length exactly when there is none |
| Lists.RemoveFirst | LR3_CSaN/Program.cs:148 | exactly one occurrence of the element is removed, and the list is unchanged when the element is absent |
| Lists.RemoveFirstRemovesFirst | LR3_CSaN/Program.cs:148 | when the element occurs, the result is the list without the element at its first index, every other element kept in order |
| Lists.NoDupShrinks | LR3_CSaN/Program.cs:148 | removing entries from a list that holds each element once leaves a list that holds each element once |
| Lists.RemoveFirstSubseq | LR3_CSaN/Program.cs:148 | `List.Remove` leaves a subsequence of the list: the elements that stay keep their order |
| Lists.SubseqTrans | LR3_CSaN/Program.cs:148 | two rounds of removal that each keep order together keep order, so successive `Remove` calls leave a subsequence |
| Handshake.ParseHandshake | LR3_CSaN/Program.cs:111-117 | a frame that is accepted or fails on its port is the prefix `UDP_PORT:`, a port text, the first `:NAME:` of the frame and a name holding no `:NAME:`; it is accepted with the port `int.Parse` reads from the text, and fails on its port exactly when that text does not parse |
| Handshake.ParseWellFormed | LR3_CSaN/Program.cs:112-117 | conversely, every frame of that shape is accepted with that name, and its port is the parsed text, or it is a bad-port handshake when the text does not parse |
| Handshake.FirstSeparator | LR3_CSaN/Program.cs:112 | after `UDP_PORT:` and a port text with no ':' that does not start with 'N', the first `:NAME:` is the one right after the port text |
| Handshake.HandshakeRoundTrip | LR3_CSaN/Program.cs:233 | the relay parses the frame a peer builds back to the same port and name, for every `int` port and every name without `:NAME:` |
| Handshake.ChatFrameNotHandshake | LR3_CSaN/Program.cs:312 | a chat line whose sender name has no ':' and is not `UDP_PORT` is never taken for a handshake |
| Handshake.HandshakeFrame | LR3_CSaN/Program.cs:233 | the frame a peer sends first: `UDP_PORT:`, its datagram port as `ToString` writes it, `:NAME:` and its name (read back by `HandshakeRoundTrip`) |
| Handshake.ChatFrame | LR3_CSaN/Program.cs:312 | the frame a peer sends for a line of input: its name, `: ` and the line (never a handshake by `ChatFrameNotHandshake`) |
| Handshake.ChatFrameAsHandshake | LR3_CSaN/Program.cs:312 | the parser reads a first frame shaped like the chat line `UDP_PORT: <port>:NAME:<name>` as a handshake for that port and name |
| Handshake.CoalescedChatJoinsName | LR3_CSaN/Program.cs:233 | a handshake and a chat line that arrive in one read are taken as one handshake whose name swallows the chat line |
| ClientCounter.ClientIp | LR3_CSaN/Program.cs:269 | the address for a counter: `127.0.0.` and the counter as `ToString` writes it (distinct counters give distinct addresses by `ClientIpDistinct`) |
| ClientCounter.FileAfterAllocation | LR3_CSaN/Program.cs:270-275 | the text written back after an allocation: the counter plus one, wrapped to 32 bits, formatted by `ToString` (read back as that counter by `AllocationAdvancesCounter`) |
| ClientCounter.StoredCounter | LR3_CSaN/Program.cs:251-262 | the counter is the file's `int` when the file exists and parses, and 2 otherwise |
| ClientCounter.ReadCounter | LR3_CSaN/Program.cs:251-266 | the counter read from the file is the stored counter: the file's `int`, or 2 when the file is missing or does not parse |
| ClientCounter.GetNextClientIp | LR3_CSaN/Program.cs:249-283 | the address is `127.0.0.` followed by the stored counter, and the file afterwards holds the counter plus one, wrapped to 32 bits |
| ClientCounter.ResetClientCounter | LR3_CSaN/Program.cs:70-83 | the file exists afterwards exactly when it existed before, and the next allocation starts from 2 |
| ClientCounter.AllocationAdvancesCounter | LR3_CSaN/Program.cs:269-275 | the counter read back after an allocation is the previous counter plus one, wrapped |
| ClientCounter.ConsecutiveAddressesDiffer | LR3_CSaN/Program.cs:269-275 | two allocations in a row hand out different addresses, also across the wrap from `int.MaxValue` |
| ClientCounter.NextAddressDiffers | LR3_CSaN/Program.cs:269-271 | the address for a counter differs from the address for the wrapped increment of that counter |
| ClientCounter.ClientIpDistinct | LR3_CSaN/Program.cs:269 | distinct counters give distinct addresses |
| ClientCounter.ResetThenAllocate | LR3_CSaN/Program.cs:74-76 | after a reset the next peer gets `127.0.0.2`, whether or not the file existed |
| Relay.ClientInfo | LR3_CSaN/Program.cs:108-109 | `clientInfo`: the remote address, `:` and the remote port (set exactly when the first read returned data, by `HandshakeSetsInfo`) |
| Relay.ConnectNotice | LR3_CSaN/Program.cs:121 | the arrival notice with `clientInfo` and the display name (sent to every endpoint, the new one included, by `HandshakeRegisters`) |
| Relay.DisconnectNotice | LR3_CSaN/Program.cs:142 | the departure notice with `clientInfo` (sent to every endpoint listed before the removal, by `TeardownNotifiesAll`) |
| Relay.FanOutTcpAtMostOnce | LR3_CSaN/Program.cs:168-184 | a snapshot holding each client once is written to each client at most once |
| Relay.Targets | LR3_CSaN/Program.cs:170-172 | a client is a target exactly when it is in the snapshot, is not the sender and is connected; each target appears as often as in the snapshot; and snapshot order is kept |
| Relay.Recipients | LR3_CSaN/Program.cs:170-176 | the clients written to, one per write, in write order |
| Relay.FanOutTcpTargets | LR3_CSaN/Program.cs:167-176 | a stream broadcast writes to exactly the targets of its snapshot, in snapshot order |
| Relay.FanOutTcpWrites | LR3_CSaN/Program.cs:172-181 | every write carries the broadcast data, and it goes through exactly when writing to that client does not throw |
| Relay.FanOutTcpIgnoresLive | LR3_CSaN/Program.cs:167-168 | the writes depend on the snapshot alone; a change to the live list during the broadcast does not change them |
| Relay.FanOutTcpRemoves | LR3_CSaN/Program.cs:178-181 | the live list afterwards is the live list before minus one entry per write that threw, and a subsequence of it: the clients that stay keep their order |
| Relay.FanOutTcpKeepsOrder | LR3_CSaN/Program.cs:166-184 | the live list after a stream broadcast is a subsequence of the live list before, so the order of later snapshots is the order of joining |
| Relay.UndeliveredAreFailedTargets | LR3_CSaN/Program.cs:172-181 | only targets whose write threw are removed |
| Relay.BroadcastKeepsSender | LR3_CSaN/Program.cs:172 | a stream broadcast never removes its sender from the live list |
| Relay.FanOutTcpNoEcho | LR3_CSaN/Program.cs:172 | no write of a stream broadcast goes back to its sender |
| Relay.FanOutTcp | LR3_CSaN/Program.cs:164-184 | the stream broadcast over a snapshot: one write per target, and the live list after removing each client whose write threw (its properties are the `FanOutTcp…` lemmas below) |
| Relay.FanOutUdp | LR3_CSaN/Program.cs:186-195 | the endpoints sent to are the longest prefix of the snapshot with no failing send; the broadcast completes, having sent to every endpoint once and in order, exactly when no datagram send throws |
| Relay.HandshakeStep | LR3_CSaN/Program.cs:104-125 | the first read and the handshake: the lists, `clientInfo`, the announcement and whether the read loop is reached (its properties are the `Handshake…` lemmas below) |
| Relay.RelayFrom | LR3_CSaN/Program.cs:127-135 | the read loop: one stream broadcast per read until a read of 0 bytes (its properties are the `Relay…` lemmas below) |
| Relay.TeardownStep | LR3_CSaN/Program.cs:138-153 | the `finally`: when `clientInfo` is set, the departure notice to the endpoints as listed, then the session removal unless a send threw |
| Relay.RemoveSession | LR3_CSaN/Program.cs:146-152 | the lock block of the `finally`: the client removed once from the stream list, then, unless reading the closed socket's remote endpoint throws, every endpoint equal to its stream address and port removed |
| Relay.RemoveEndPointsOf | LR3_CSaN/Program.cs:150-152 | the endpoints whose address and port both differ from the client's stream endpoint, in order |
| Relay.Lifecycle | LR3_CSaN/Program.cs:95-157 | one handler from its first read to its `finally`: handshake, read loop, teardown, and everything sent on the way |
| Relay.RelayKeepsEndPoints | LR3_CSaN/Program.cs:127-135 | the read loop leaves `_udpEndPoints` unchanged |
| Relay.RelayOnlyRemoves | LR3_CSaN/Program.cs:127-135 | the read loop only removes entries from `_tcpClients` (a sub-multiset), and the entries that stay keep their order (a subsequence) |
| Relay.RelayKeepsReader | LR3_CSaN/Program.cs:127-135 | the read loop never removes the reading client |
| Relay.RelayCountsFrames | LR3_CSaN/Program.cs:127-135 | the loop relays one frame per read until the first read of 0 bytes |
| Relay.RelayForwardsFrames | LR3_CSaN/Program.cs:127-135 | every frame read after the handshake is relayed verbatim and in the order read |
| Relay.RelayNeverEchoes | LR3_CSaN/Program.cs:127-135 | no relayed frame is written back to the connection that sent it |
| Relay.HandshakeKeepsClients | LR3_CSaN/Program.cs:104-125 | the handshake never changes `_tcpClients` |
| Relay.HandshakeSetsInfo | LR3_CSaN/Program.cs:104-109 | `clientInfo` is set exactly when the first read returned data, to the remote address and port |
| Relay.HandshakeRegisters | LR3_CSaN/Program.cs:114-123 | a handshake with a port in range appends exactly the endpoint (remote address, announced port) and announces the peer to all endpoints, itself included; the loop runs when that announcement was sent to all of them |
| Relay.HandshakeIgnoresOthers | LR3_CSaN/Program.cs:104-125 | an empty first read, or a frame that is not a handshake, changes neither list, announces nothing, and goes on to the read loop |
| Relay.HandshakeRejects | LR3_CSaN/Program.cs:114-119 | a port that does not parse or is out of range registers and announces nothing and skips the read loop, but `clientInfo` is set |
| Relay.TeardownOnlyRemoves | LR3_CSaN/Program.cs:138-153 | the `finally` only removes entries from `_tcpClients`, and the entries that stay keep their order |
| Relay.TeardownNotifiesAll | LR3_CSaN/Program.cs:140-153 | when no datagram send throws, the departure notice goes to every endpoint listed before the removal, and the session is then removed |
| Relay.RemoveEndPointsKeepsOthers | LR3_CSaN/Program.cs:150-152 | the endpoint removal keeps every endpoint other than the client's stream address and port |
| Relay.RemoveEndPointsDropsRemote | LR3_CSaN/Program.cs:150-152 | the endpoint removal leaves no endpoint equal to the client's stream address and port |
| Relay.SilentClientStaysListed | LR3_CSaN/Program.cs:104-140 | after a first read of 0 bytes the handler changes neither list, so the client stays in `_tcpClients`, and it sends nothing |
| Relay.LifecycleOnlyRemovesClients | LR3_CSaN/Program.cs:95-157 | a whole handler only removes entries from `_tcpClients`, and the entries that stay keep their order, which is the snapshot order of every later broadcast |
| Relay.TeardownIffFirstReadNonEmpty | LR3_CSaN/Program.cs:138-144 | the handler ends with the departure notice exactly when its first read returned data |
| Relay.DataEndsWithDeparture | LR3_CSaN/Program.cs:106-144 | after a first read with data, the last thing the handler sends is the departure notice naming the client's address and port |
| Relay.UnregisteredClientRelays | LR3_CSaN/Program.cs:104-153 | after a first frame that is not a handshake, all later frames are relayed as chat; when no datagram send throws, the client is removed once from the stream list, and the endpoint list loses every entry equal to its stream endpoint, or stays as it was when reading the closed socket's remote endpoint throws |
| Relay.OrphanedEndPoint | LR3_CSaN/Program.cs:119-152 | when the announced port differs from the stream port, or reading the closed socket's remote endpoint throws, the registered endpoint is still in `_udpEndPoints` after the handler ends |
| Relay.EndPointsNeverRemoved | LR3_CSaN/Program.cs:119-152 | when reading the closed socket's remote endpoint throws, a handler never removes an endpoint: the list afterwards holds the list before and at most one more entry |
| Relay.HandshakeAppendsAtMostOne | LR3_CSaN/Program.cs:114-123 | the handshake keeps the endpoint list as a prefix and adds at most one endpoint |
| Relay.LeaverHearsOwnDeparture | LR3_CSaN/Program.cs:142-153 | when no datagram send throws, a registered peer's handler ends with the departure notice, and the notice is sent to that peer's own endpoint |
| Relay.LifecycleKeepsNoDup | LR3_CSaN/Program.cs:95-157 | a stream list holding each client once still does after a whole handler |
| Relay.ListedClientRemoved | LR3_CSaN/Program.cs:146-153 | with a stream list holding each client once, a listed client that sent data and whose departure notice went out is gone from `_tcpClients`; unless reading the closed socket's remote endpoint throws, no endpoint equal to its stream address and port is left |
| Relay.TeardownRemovesClient | LR3_CSaN/Program.cs:146-153 | when no datagram send throws, a client that sent data and was listed once is gone from `_tcpClients`; unless reading the closed socket's remote endpoint throws, no endpoint equal to its stream address and port is left |
| Server.ChatServer.constructor | LR3_CSaN/Program.cs:45-46 | both lists start empty, so no client is listed twice |
| Server.ChatServer.AcceptTcpClient | LR3_CSaN/Program.cs:89-90 | a newly accepted client, never listed before, is appended to the end of `_tcpClients`; the existing entries and `_udpEndPoints` are unchanged, and still no client is listed twice |
| Server.ChatServer.BroadcastTcp | LR3_CSaN/Program.cs:164-184 | the loop over the snapshot produces the writes and the live list that `FanOutTcp` specifies, writes to each client at most once, keeps every client listed at most once, and leaves `_udpEndPoints` unchanged |
| Server.ChatServer.BroadcastUdp | LR3_CSaN/Program.cs:186-196 | the loop over the snapshot sends to the endpoints `FanOutUdp` specifies, and completes exactly when it does; no list changes |
| Server.ChatServer.RemoveSession | LR3_CSaN/Program.cs:146-153 | the new state of both lists is `Relay.RemoveSession` of the old: the client removed once from `_tcpClients` (its first occurrence); `_udpEndPoints` loses every endpoint equal to the client's stream address and port, or is unchanged when reading the closed socket's remote endpoint throws; still no client is listed twice |
| Server.ChatServer.OpenSession | LR3_CSaN/Program.cs:104-125 | the first read and the handshake change the lists and set `clientInfo` as `HandshakeStep` specifies |
| Server.ChatServer.RelayLoop | LR3_CSaN/Program.cs:127-135 | the read loop changes the lists and relays the frames as `RelayFrom` specifies, and keeps every client listed at most once |
| Server.ChatServer.CloseSession | LR3_CSaN/Program.cs:138-154 | the `finally` announces the departure and removes the session as `TeardownStep` specifies, and keeps every client listed at most once |
| Server.ChatServer.HandleTcpClient | LR3_CSaN/Program.cs:95-157 | a whole handler changes the lists and sends what `Lifecycle` specifies, so every `Relay` lemma about `Lifecycle` holds of it; it keeps every client listed at most once |

## Left out

- Sockets are not modelled: `TcpListener`, `UdpClient`, `NetworkStream`, `AcceptUdpClients` (which receives datagrams and discards them), and `client.Dispose`. Reads are a sequence of frames; `Connected`, write failures and send failures are sets fixed for the length of one call.
- Relay.Lifecycle: one `Transport` serves every broadcast of a handler, so which clients report `Connected` and which writes and sends throw stay the same from the handshake to the `finally`. A peer that disconnects between two relayed frames is not modelled.
- `async`/`await`, `Task.WhenAll`, `Task.WhenAny`, `Task.Delay` and the locks are not modelled. The model is sequential, and the interleaving of several connection handlers is not modelled.
- Relay.Lifecycle: covers one handler run on its own. Frames another handler relays or removes in between are not modelled.
- UTF-8 encoding and the 1024-byte read buffer are not modelled. A frame is the string one read delivers. A read that splits or joins frames is only covered by `CoalescedChatJoinsName`.
- Console input and output, `Main`'s mode, address and port prompts, and `Start`'s listener setup are not modelled. Of `Start`, only the counter reset (`ResetClientCounter`) is.
- `ChatClient.Connect`, `ReceiveTcpMessages`, `ReceiveUdpNotifications` and `SendMessages` are socket and console loops. Only the two frames they send are modelled: `HandshakeFrame` (Program.cs:233) and `ChatFrame` (Program.cs:312).
- File exceptions are not modelled. The file is an `Option<string>`. A file that exists but cannot be read (counter 2 in the code) is not distinguished, and a write that throws (nothing stored in the code) is not either.
- Text.StartsWith: ordinal. The code's `StartsWith(string)` compares culture-sensitively, which can differ for strings containing ignorable characters.
- Text.ParseInt32: takes the sign symbols as `-` and `+` with the invariant culture. It does not accept the trailing NUL characters .NET tolerates.
- Server.ChatServer.RemoveSession: the `ObjectDisposedException` that reading `RemoteEndPoint` throws after the disposal is the `closedRemoteThrows` flag: with it the endpoint list is left as it was and the exception itself is not modelled (what the handler's task does with it is out of scope, as for every exception escaping `HandleTcpClient`). Without it the endpoint read is the client's remote endpoint as it was at accept.
- Text.IntToString: writes `-` for the negative sign, the invariant culture's. `int.ToString()` uses the current culture's `NegativeSign`, which some cultures set to another character.
- Exceptions that escape `HandleTcpClient` (an unobserved task in the code) are modelled only by skipping the rest of the `try`. The exception itself is not modelled.

=== FILE: counter.dfy ===
/** The file-backed counter that hands each client a loopback address of
    its own. The counter file is a value: `None` when the file does not
    exist, `Some(text)` for its contents. */
module ClientCounter {
  import opened Text

  /** The counter used when the file is missing or does not hold an int. */
  const COUNTER_BASE: int := 2

  /** The counter a client starts from: the file's `int` when the file
      exists and `int.TryParse` accepts its text, otherwise the base. */
  function StoredCounter(file: Option<string>): (c: int)
    ensures IsInt32(c)
    ensures file.None? ==> c == COUNTER_BASE
    ensures file.Some? && ParseInt32(file.value).Some? ==> c == ParseInt32(file.value).value
    ensures file.Some? && ParseInt32(file.value).None? ==> c == COUNTER_BASE
  {
    match file
    case None => COUNTER_BASE
    case Some(text) =>
      match ParseInt32(text)
      case Some(saved) => saved
      case None => COUNTER_BASE
  }

  /** The loopback address for counter value `c`. */
  function ClientIp(c: int): string {
    "127.0.0." + IntToString(c)
  }

  /** What the file holds after an allocation starting from `file`. */
  function FileAfterAllocation(file: Option<string>): Option<string> {
    Some(IntToString(Wrap32(StoredCounter(file) + 1)))
  }

  /** `ChatClient.GetNextClientIp`: read the counter (falling back to 2),
      build "127.0.0.<counter>", increment the counter with 32-bit
      wrap-around and write it back. Returns the address and the file. */
  method GetNextClientIp(file: Option<string>) returns (ip: string, written: Option<string>)
    ensures ip == ClientIp(StoredCounter(file))
    ensures written == FileAfterAllocation(file)
  {
    var counter := ReadCounter(file);
    ip := "127.0.0." + IntToString(counter);
    counter := Wrap32(counter + 1);
    written := Some(IntToString(counter));
  }

  /** The `try` block that reads the counter file: start from 2 and take
      the file's text when the file exists and `int.TryParse` accepts it. */
  method ReadCounter(file: Option<string>) returns (counter: int)
    ensures counter == StoredCounter(file)
  {
    counter := 2;
    if file.Some? {
      var content := file.value;
      var saved := ParseInt32(content);
      if saved.Some? {
        counter := saved.value;
      }
    }
  }

  /** `ChatServer.ResetClientCounter`: write "2" into the file only when it
      already exists. Either way the next client starts from the base. */
  function ResetClientCounter(file: Option<string>): (r: Option<string>)
    ensures r.Some? <==> file.Some?
    ensures StoredCounter(r) == COUNTER_BASE
  {
    if file.Some? then
      assert ParseInt32("2") == Some(2) by { ParseFormatRoundTrip(2); }
      Some("2")
    else None
  }

  /** The file written by an allocation holds the incremented counter. */
  lemma AllocationAdvancesCounter(file: Option<string>)
    ensures StoredCounter(FileAfterAllocation(file)) == Wrap32(StoredCounter(file) + 1)
  {
    ParseFormatRoundTrip(Wrap32(StoredCounter(file) + 1));
  }

  /** Two allocations in a row hand out different addresses, also when the
      counter wraps around from `int.MaxValue`. */
  lemma ConsecutiveAddressesDiffer(file: Option<string>)
    ensures ClientIp(StoredCounter(file)) != ClientIp(StoredCounter(FileAfterAllocation(file)))
  {
    AllocationAdvancesCounter(file);
    NextAddressDiffers(StoredCounter(file));
  }

  /** The address after an increment differs from the one before it. */
  lemma NextAddressDiffers(c: int)
    requires IsInt32(c)
    ensures ClientIp(c) != ClientIp(Wrap32(c + 1))
  {
    ClientIpDistinct(c, Wrap32(c + 1));
  }

  /** Distinct counter values give distinct addresses. */
  lemma ClientIpDistinct(c: int, d: int)
    requires IsInt32(c) && IsInt32(d) && c != d
    ensures ClientIp(c) != ClientIp(d)
  {
    IntToStringDistinct(c, d);
    assert ClientIp(c)[8..] == IntToString(c);
    assert ClientIp(d)[8..] == IntToString(d);
  }

  /** After the server resets the counter, the next client gets
      127.0.0.2, whether or not the file existed. */
  lemma ResetThenAllocate(file: Option<string>)
    ensures ClientIp(StoredCounter(ResetClientCounter(file))) == "127.0.0.2"
  {
    assert IntToString(2) == "2";
  }
}

=== FILE: handshake.dfy ===
/** The text frames of the chat protocol: the handshake a client sends as
    its first stream frame, `UDP_PORT:<port>:NAME:<name>`, the way the
    server takes it apart, and the chat frame `<name>: <input>`. */
module Handshake {
  import opened Text

  const PORT_PREFIX: string := "UDP_PORT:"
  const NAME_SEPARATOR: string := ":NAME:"

  /** What the server makes of a first frame: not a handshake (the frame
      is let through to the read loop), a handshake whose port text makes
      `int.Parse` throw, or a handshake with its port and display name. */
  datatype HandshakeResult =
    | NotHandshake
    | BadPort(name: string)
    | Handshake(udpPort: int, name: string)

  /** The server's reading of a first frame: split it on ":NAME:", accept
      exactly two parts whose first starts with "UDP_PORT:", parse the rest
      of the first part as the port and take the second as the name. A
      frame that is not rejected outright is the prefix, a port text, the
      first separator of the frame and a name holding no separator; it is
      a handshake exactly when `int.Parse` reads the port text, and a
      bad-port handshake exactly when it throws. */
  function ParseHandshake(frame: string): (r: HandshakeResult)
    ensures !r.NotHandshake? ==> StartsWith(frame, PORT_PREFIX)
    ensures !r.NotHandshake? ==>
              && |PORT_PREFIX| + |NAME_SEPARATOR| + |r.name| <= |frame|
              && var t := frame[|PORT_PREFIX|..|frame| - |NAME_SEPARATOR| - |r.name|];
                 && frame == PORT_PREFIX + t + NAME_SEPARATOR + r.name
                 && IndexOf(PORT_PREFIX + t + NAME_SEPARATOR, NAME_SEPARATOR) == Some(|PORT_PREFIX| + |t|)
                 && IndexOf(r.name, NAME_SEPARATOR).None?
                 && ParseInt32(t) == (if r.Handshake? then Some(r.udpPort) else None)
  {
    var parts := Split(frame, NAME_SEPARATOR);
    if |parts| == 2 && StartsWith(parts[0], PORT_PREFIX) then
      var name := parts[1];
      assert Join(parts[1..], NAME_SEPARATOR) == name;
      PortFrameShape(frame, parts[0], name);
      var r := match ParseInt32(parts[0][|PORT_PREFIX|..])
        case None => BadPort(name)
        case Some(port) => Handshake(port, name);
      assert r.name == name;
      r
    else NotHandshake
  }

  /** A frame cut into a head starting with the port prefix, the
      separator and a name: the port text is the head without the prefix,
      and it sits between the prefix and the separator. */
  lemma PortFrameShape(frame: string, head: string, name: string)
    requires frame == head + NAME_SEPARATOR + name
    requires StartsWith(head, PORT_PREFIX)
    ensures StartsWith(frame, PORT_PREFIX)
    ensures |PORT_PREFIX| + |NAME_SEPARATOR| + |name| <= |frame|
    ensures var t := frame[|PORT_PREFIX|..|frame| - |NAME_SEPARATOR| - |name|];
            && t == head[|PORT_PREFIX|..]
            && head + NAME_SEPARATOR == PORT_PREFIX + t + NAME_SEPARATOR
            && frame == PORT_PREFIX + t + NAME_SEPARATOR + name
  {
    var t := head[|PORT_PREFIX|..];
    assert head == PORT_PREFIX + t;
    assert frame[..|PORT_PREFIX|] == PORT_PREFIX;
    assert frame[|PORT_PREFIX|..|frame| - |NAME_SEPARATOR| - |name|] == t;
  }

  /** The handshake frame a client sends (Program.cs:233). */
  function HandshakeFrame(udpPort: int, name: string): string {
    PORT_PREFIX + IntToString(udpPort) + NAME_SEPARATOR + name
  }

  /** The chat frame a client sends for one line of input (Program.cs:312). */
  function ChatFrame(name: string, input: string): string {
    name + ": " + input
  }

  predicate NoColon(t: string) {
    forall i :: 0 <= i < |t| ==> t[i] != ':'
  }

  /** With a port text free of ':' that does not start with 'N', the
      separator that follows it is the first one in the frame. */
  lemma FirstSeparator(t: string)
    requires NoColon(t) && |t| > 0 && t[0] != 'N'
    ensures IndexOf(PORT_PREFIX + t + NAME_SEPARATOR, NAME_SEPARATOR)
            == Some(|PORT_PREFIX| + |t|)
  {
    var s := PORT_PREFIX + t + NAME_SEPARATOR;
    var k := |PORT_PREFIX| + |t|;
    assert s[k..k + |NAME_SEPARATOR|] == NAME_SEPARATOR;
    forall j | 0 <= j < k ensures !MatchAt(s, NAME_SEPARATOR, j) {
      if j < 8 {
        assert s[j] == PORT_PREFIX[j];
        NotSeparatorAt(s, j);
      } else if j == 8 {
        assert s[9] == t[0];
        NotSeparatorAt(s, j);
      } else {
        assert s[j] == t[j - 9];
        NotSeparatorAt(s, j);
      }
    }
    IndexOfIs(s, NAME_SEPARATOR, k);
  }

  /** The separator starts with ":N", so it cannot start anywhere else. */
  lemma NotSeparatorAt(s: string, j: nat)
    requires j + 1 < |s|
    requires s[j] != ':' || s[j + 1] != 'N'
    ensures !MatchAt(s, NAME_SEPARATOR, j)
  {
    if j + |NAME_SEPARATOR| <= |s| {
      assert s[j..j + |NAME_SEPARATOR|][0] == s[j];
      assert s[j..j + |NAME_SEPARATOR|][1] == s[j + 1];
    }
  }

  /** A frame made of the prefix, a port text, the first separator and a
      name free of separators is accepted with that name; its port is the
      parsed text, or the frame is a bad-port handshake when the text does
      not parse. */
  lemma ParseWellFormed(t: string, name: string)
    requires IndexOf(PORT_PREFIX + t + NAME_SEPARATOR, NAME_SEPARATOR)
             == Some(|PORT_PREFIX| + |t|)
    requires IndexOf(name, NAME_SEPARATOR).None?
    ensures ParseHandshake(PORT_PREFIX + t + NAME_SEPARATOR + name)
            == match ParseInt32(t)
               case Some(port) => Handshake(port, name)
               case None => BadPort(name)
  {
    var a := PORT_PREFIX + t;
    var frame := PORT_PREFIX + t + NAME_SEPARATOR + name;
    assert (a + NAME_SEPARATOR) + name == frame;
    IndexOfExtend(a + NAME_SEPARATOR, name, NAME_SEPARATOR);
    SplitInTwo(a, name, NAME_SEPARATOR);
    assert a[..|PORT_PREFIX|] == PORT_PREFIX;
    assert a[|PORT_PREFIX|..] == t;
    ParseOfTwoParts(frame, a, name);
  }

  /** A frame that splits into a part starting with the prefix and a name
      is read by parsing the rest of that part as the port. */
  lemma ParseOfTwoParts(frame: string, a: string, name: string)
    requires Split(frame, NAME_SEPARATOR) == [a, name]
    requires StartsWith(a, PORT_PREFIX)
    ensures ParseHandshake(frame)
            == match ParseInt32(a[|PORT_PREFIX|..])
               case Some(port) => Handshake(port, name)
               case None => BadPort(name)
  {
  }

  /** Round trip: the server reads back the port and name of the frame a
      client builds, for every `int` port and every name that does not
      contain ":NAME:". */
  lemma HandshakeRoundTrip(udpPort: int, name: string)
    requires IsInt32(udpPort)
    requires IndexOf(name, NAME_SEPARATOR).None?
    ensures ParseHandshake(HandshakeFrame(udpPort, name)) == Handshake(udpPort, name)
  {
    var t := IntToString(udpPort);
    FirstSeparator(t);
    ParseWellFormed(t, name);
    ParseFormatRoundTrip(udpPort);
  }

  /** A chat line read as a first frame is not taken for a handshake when
      the sender's name holds no ':' and is not "UDP_PORT". */
  lemma ChatFrameNotHandshake(name: string, input: string)
    requires NoColon(name) && name != "UDP_PORT"
    ensures ParseHandshake(ChatFrame(name, input)) == NotHandshake
  {
    var f := ChatFrame(name, input);
    assert !StartsWith(f, PORT_PREFIX) by {
      if |name| > 8 {
        assert f[8] == name[8];
      } else if |name| == 8 {
        assert f[..8] == name;
        assert PORT_PREFIX[..8] == "UDP_PORT";
      } else {
        assert f[|name|] == ':';
      }
    }
  }

  /** The parser alone: a first frame shaped like the chat line
      "UDP_PORT: <port>:NAME:<name>" is read as a handshake for that port
      and name, since `int.Parse` skips the blank after the colon. Only a
      connection's first frame is parsed, and `ChatClient` always sends its
      handshake first, so such a frame can come only from another client
      speaking the protocol. */
  lemma ChatFrameAsHandshake(udpPort: int, name: string)
    requires IsInt32(udpPort)
    requires IndexOf(name, NAME_SEPARATOR).None?
    ensures ParseHandshake(ChatFrame("UDP_PORT", IntToString(udpPort) + NAME_SEPARATOR + name))
            == Handshake(udpPort, name)
  {
    var d := IntToString(udpPort);
    var t := " " + d;
    assert ChatFrame("UDP_PORT", d + NAME_SEPARATOR + name) == PORT_PREFIX + t + NAME_SEPARATOR + name;
    FirstSeparator(t);
    ParseWellFormed(t, name);
    LeadingSpaceIgnored(d);
    ParseFormatRoundTrip(udpPort);
  }

  /** A handshake and the first chat line that arrive in one read are taken
      as one handshake whose name swallows the chat line. */
  lemma CoalescedChatJoinsName(udpPort: int, name: string, input: string)
    requires IsInt32(udpPort)
    requires IndexOf(name + ChatFrame(name, input), NAME_SEPARATOR).None?
    ensures ParseHandshake(HandshakeFrame(udpPort, name) + ChatFrame(name, input))
            == Handshake(udpPort, name + ChatFrame(name, input))
  {
    assert HandshakeFrame(udpPort, name) + ChatFrame(name, input)
           == HandshakeFrame(udpPort, name + ChatFrame(name, input));
    HandshakeRoundTrip(udpPort, name + ChatFrame(name, input));
  }
}

=== FILE: lists.dfy ===
/** The `List<T>` operations the relay applies to its membership lists:
    `Remove` (first occurrence) and `RemoveAll` (every element matching a
    predicate), together with the filtering used to pick broadcast
    targets out of a snapshot. */
module Lists {

  /** `a` is `b` with some elements left out, the rest in their order. */
  ghost predicate IsSubseq<T>(a: seq<T>, b: seq<T>)
    decreases |b|
  {
    if a == [] then true
    else if b == [] then false
    else (a[0] == b[0] && IsSubseq(a[1..], b[1..])) || IsSubseq(a, b[1..])
  }

  lemma {:induction false} SubseqRefl<T>(s: seq<T>)
    ensures IsSubseq(s, s)
    decreases |s|
  {
    if s != [] {
      SubseqRefl(s[1..]);
    }
  }

  /** Leaving elements out twice is leaving elements out once. */
  lemma {:induction false} SubseqTrans<T>(a: seq<T>, b: seq<T>, c: seq<T>)
    requires IsSubseq(a, b) && IsSubseq(b, c)
    ensures IsSubseq(a, c)
    decreases |c|
  {
    if a == [] {
    } else if IsSubseq(b, c[1..]) {
      SubseqTrans(a, b, c[1..]);
    } else if a[0] == b[0] && IsSubseq(a[1..], b[1..]) {
      SubseqTrans(a[1..], b[1..], c[1..]);
    } else {
      SubseqTrans(a, b[1..], c[1..]);
    }
  }

  /** No element occurs in `s` more than once. */
  ghost predicate NoDup<T(!new)>(s: seq<T>) {
    forall x :: multiset(s)[x] <= 1
  }

  /** Leaving elements out of a list without duplicates leaves a list
      without duplicates. */
  lemma NoDupShrinks<T(!new)>(a: seq<T>, b: seq<T>)
    requires multiset(a) <= multiset(b)
    requires NoDup(b)
    ensures NoDup(a)
  {
    forall x ensures multiset(a)[x] <= 1 {
      assert multiset(a)[x] <= multiset(b)[x];
    }
  }

  /** The elements of `s` satisfying `p`, in their order. */
  function Filter<T(==,!new)>(s: seq<T>, p: T -> bool): (r: seq<T>)
    ensures forall x :: multiset(r)[x] == if p(x) then multiset(s)[x] else 0
    ensures forall x :: x in r <==> x in s && p(x)
    ensures IsSubseq(r, s)
    decreases |s|
  {
    if s == [] then []
    else
      var rest := Filter(s[1..], p);
      assert s == [s[0]] + s[1..];
      if p(s[0]) then
        var r := [s[0]] + rest;
        assert r[1..] == rest;
        r
      else rest
  }

  /** `list.RemoveAll(p)`: drop every element matching `p`, keep the others
      in their order. */
  function RemoveAll<T(==,!new)>(s: seq<T>, p: T -> bool): (r: seq<T>)
    ensures forall x :: multiset(r)[x] == if p(x) then 0 else multiset(s)[x]
    ensures IsSubseq(r, s)
  {
    Filter(s, x => !p(x))
  }

  /** The index of the first element of `s` equal to `x`, or `|s|` when
      there is none. */
  function FirstIndex<T(==)>(s: seq<T>, x: T): (i: nat)
    ensures i <= |s|
    ensures i < |s| <==> x in s
    ensures i < |s| ==> s[i] == x
    ensures forall j :: 0 <= j < i ==> s[j] != x
    decreases |s|
  {
    if s == [] then 0
    else if s[0] == x then 0
    else 1 + FirstIndex(s[1..], x)
  }

  /** `list.Remove(x)`: drop the first element equal to `x`, if any; `s`
      itself when `x` does not occur. Which element goes, and that the
      others keep their order, is `RemoveFirstRemovesFirst`. */
  function RemoveFirst<T(==)>(s: seq<T>, x: T): (r: seq<T>)
    ensures multiset(r) == multiset(s) - multiset{x}
    ensures x !in s ==> r == s
    decreases |s|
  {
    if s == [] then []
    else if s[0] == x then
      assert s == [s[0]] + s[1..];
      s[1..]
    else
      var rest := RemoveFirst(s[1..], x);
      assert s == [s[0]] + s[1..];
      [s[0]] + rest
  }

  /** `r` is `s` without its element at index `i`, the others in order. */
  predicate RemovedAt<T(==)>(s: seq<T>, i: nat, r: seq<T>) {
    && i < |s|
    && |r| == |s| - 1
    && forall j {:trigger r[j]} :: 0 <= j < |r| ==> r[j] == if j < i then s[j] else s[j + 1]
  }

  /** When `x` occurs in `s`, `RemoveFirst` drops exactly the element at its
      first index and keeps every other element in its order. */
  lemma {:induction false} RemoveFirstRemovesFirst<T>(s: seq<T>, x: T)
    requires x in s
    ensures RemovedAt(s, FirstIndex(s, x), RemoveFirst(s, x))
    decreases |s|
  {
    if s[0] == x {
      assert FirstIndex(s, x) == 0;
      assert RemoveFirst(s, x) == s[1..];
    } else {
      var t := s[1..];
      assert x in t;
      RemoveFirstRemovesFirst(t, x);
      var i := FirstIndex(t, x);
      var rest := RemoveFirst(t, x);
      var r := RemoveFirst(s, x);
      assert r == [s[0]] + rest;
      assert FirstIndex(s, x) == i + 1;
      forall j | 0 <= j < |r|
        ensures r[j] == if j < i + 1 then s[j] else s[j + 1]
      {
        if j > 0 {
          assert r[j] == rest[j - 1];
          assert rest[j - 1] == if j - 1 < i then t[j - 1] else t[j];
        }
      }
    }
  }

  /** `RemoveFirst` keeps the remaining elements in their order. */
  lemma {:induction false} RemoveFirstSubseq<T>(s: seq<T>, x: T)
    ensures IsSubseq(RemoveFirst(s, x), s)
    decreases |s|
  {
    if s == [] {
    } else if s[0] == x {
      SubseqRefl(s[1..]);
    } else {
      var r := RemoveFirst(s, x);
      RemoveFirstSubseq(s[1..], x);
      assert r[0] == s[0] && r[1..] == RemoveFirst(s[1..], x);
    }
  }
}

=== FILE: relay.dfy ===
/** The relay's membership bookkeeping and fan-out, as functions on the
    values of its two lists. Each function is the specification of one
    step of `ChatServer`; the lemmas state what the steps and their
    composition guarantee.

    The transport is abstract: which clients report `Connected`, which
    stream writes throw and which datagram sends throw. */
module Relay {
  import opened Text
  import opened Lists
  import opened Handshake

  /** An `IPEndPoint`: the textual address and the port. */
  datatype EndPoint = EndPoint(address: string, port: int)

  /** An accepted `TcpClient`. Distinct accepts carry distinct `id`s, which
      stand for object identity; `remote` is the socket's remote endpoint. */
  datatype Client = Client(id: nat, remote: EndPoint)

  /** The outcome of the transport calls during one handler run:
      `connected` are the clients whose `Connected` is true, a write to a
      client in `tcpFailing` throws, and a datagram send to an endpoint in
      `udpFailing` throws. `closedRemoteThrows` says whether reading
      `RemoteEndPoint` of a socket that has already been closed throws; the
      handler's `finally` does that read after its `using` block has
      disposed the stream, and the stream owns the socket. */
  datatype Transport = Transport(connected: set<Client>, tcpFailing: set<Client>, udpFailing: set<EndPoint>,
                                 closedRemoteThrows: bool)

  /** One stream write of a broadcast and whether it went through. */
  datatype TcpWrite = TcpWrite(to: Client, data: string, delivered: bool)

  /** The endpoints a datagram broadcast sent to, and whether it ran to the
      end (false: a send threw and the broadcast stopped there). */
  datatype UdpSend = UdpSend(sent: seq<EndPoint>, completed: bool)

  /** What a connection handler put on the wire: a presence notice over
      datagram, or one relayed stream frame. */
  datatype Event =
    | UdpNotice(text: string, sent: seq<EndPoint>)
    | TcpRelay(text: string, writes: seq<TcpWrite>)

  /** The server's two lists, `_tcpClients` and `_udpEndPoints`. */
  datatype Registry = Registry(tcpClients: seq<Client>, udpEndPoints: seq<EndPoint>)

  /** `IPEndPoint.MinPort` and `IPEndPoint.MaxPort`; the `IPEndPoint`
      constructor throws for a port outside them. */
  const MIN_PORT: int := 0
  const MAX_PORT: int := 65535

  predicate IsPort(p: int) {
    MIN_PORT <= p <= MAX_PORT
  }

  /** `$"{Address}:{Port}"` of the client's remote endpoint. */
  function ClientInfo(ep: EndPoint): string {
    ep.address + ":" + IntToString(ep.port)
  }

  /** The arrival notice for a client and its display name. */
  function ConnectNotice(info: string, name: string): string {
    "[Сервер] " + info + " (" + name + ") подключился"
  }

  /** The departure notice for a client. */
  function DisconnectNotice(info: string): string {
    "[Сервер] " + info + " отключился"
  }

  // ---------------------------------------------------------------------
  // Stream fan-out (BroadcastTcp)

  /** A client a stream broadcast writes to: not the sender, and connected. */
  predicate IsTarget(c: Client, sender: Client, net: Transport) {
    c != sender && c in net.connected
  }

  /** The clients of a snapshot that a broadcast from `sender` writes to,
      in snapshot order, each as often as it appears in the snapshot. */
  function Targets(snapshot: seq<Client>, sender: Client, net: Transport): (t: seq<Client>)
    ensures forall c :: c in t <==> c in snapshot && c != sender && c in net.connected
    ensures forall c :: IsTarget(c, sender, net) ==> multiset(t)[c] == multiset(snapshot)[c]
    ensures IsSubseq(t, snapshot)
  {
    Filter(snapshot, c => IsTarget(c, sender, net))
  }

  /** The loop of `BroadcastTcp` over the snapshot `snapshot`, with `live`
      the live `_tcpClients`: write `data` to every target; a write that
      throws removes that client from the live list. Gives the writes and
      the live list afterwards. */
  function FanOutTcp(snapshot: seq<Client>, live: seq<Client>, data: string, sender: Client, net: Transport)
    : (seq<TcpWrite>, seq<Client>)
    decreases |snapshot|
  {
    if snapshot == [] then ([], live)
    else
      var c := snapshot[0];
      if IsTarget(c, sender, net) then
        var delivered := c !in net.tcpFailing;
        var rest := FanOutTcp(snapshot[1..], if delivered then live else RemoveFirst(live, c), data, sender, net);
        ([TcpWrite(c, data, delivered)] + rest.0, rest.1)
      else
        FanOutTcp(snapshot[1..], live, data, sender, net)
  }

  /** The clients written to, in order. */
  function Recipients(writes: seq<TcpWrite>): (r: seq<Client>)
    ensures |r| == |writes|
    ensures forall k :: 0 <= k < |writes| ==> r[k] == writes[k].to
    decreases |writes|
  {
    if writes == [] then []
    else
      var r := [writes[0].to] + Recipients(writes[1..]);
      assert forall k :: 1 <= k < |writes| ==> r[k] == Recipients(writes[1..])[k - 1];
      r
  }

  /** The clients whose write threw, in order. */
  function Undelivered(writes: seq<TcpWrite>): seq<Client>
    decreases |writes|
  {
    if writes == [] then []
    else (if writes[0].delivered then [] else [writes[0].to]) + Undelivered(writes[1..])
  }

  /** Unfolding `Targets` by one element of the snapshot. */
  lemma TargetsCons(snapshot: seq<Client>, sender: Client, net: Transport)
    requires snapshot != []
    ensures Targets(snapshot, sender, net)
            == (if IsTarget(snapshot[0], sender, net) then [snapshot[0]] else []) + Targets(snapshot[1..], sender, net)
  {
  }

  /** A stream broadcast writes to exactly the targets of its snapshot, in
      order. The live list plays no part: a client added to or removed
      from it during the broadcast does not change whom it writes to. */
  lemma {:induction false} FanOutTcpTargets(snapshot: seq<Client>, live: seq<Client>, data: string, sender: Client, net: Transport)
    ensures Recipients(FanOutTcp(snapshot, live, data, sender, net).0) == Targets(snapshot, sender, net)
    decreases |snapshot|
  {
    if snapshot != [] {
      var c := snapshot[0];
      var live' := if IsTarget(c, sender, net) && c in net.tcpFailing then RemoveFirst(live, c) else live;
      FanOutTcpTargets(snapshot[1..], live', data, sender, net);
      TargetsCons(snapshot, sender, net);
      var rest := FanOutTcp(snapshot[1..], live', data, sender, net).0;
      if IsTarget(c, sender, net) {
        var w := [TcpWrite(c, data, c !in net.tcpFailing)] + rest;
        assert FanOutTcp(snapshot, live, data, sender, net).0 == w;
        assert w[1..] == rest;
      } else {
        assert FanOutTcp(snapshot, live, data, sender, net).0 == rest;
      }
    }
  }

  /** A snapshot that holds each client once is written to each client at
      most once. */
  lemma FanOutTcpAtMostOnce(snapshot: seq<Client>, live: seq<Client>, data: string, sender: Client, net: Transport)
    requires NoDup(snapshot)
    ensures NoDup(Recipients(FanOutTcp(snapshot, live, data, sender, net).0))
  {
    FanOutTcpTargets(snapshot, live, data, sender, net);
    var t := Targets(snapshot, sender, net);
    forall c ensures multiset(t)[c] <= 1 {
      if !IsTarget(c, sender, net) {
        assert c !in t;
      }
    }
  }

  /** Every write carries `data`, and it goes through exactly when
      writing to that client does not throw. */
  predicate WritesCarry(writes: seq<TcpWrite>, data: string, net: Transport) {
    forall k :: 0 <= k < |writes| ==>
      writes[k].data == data && (writes[k].delivered <==> writes[k].to !in net.tcpFailing)
  }

  /** Every write of a stream broadcast carries the broadcast data, and it
      goes through exactly when writing to that client does not throw. */
  lemma {:induction false} FanOutTcpWrites(snapshot: seq<Client>, live: seq<Client>, data: string, sender: Client, net: Transport)
    ensures WritesCarry(FanOutTcp(snapshot, live, data, sender, net).0, data, net)
    decreases |snapshot|
  {
    if snapshot != [] {
      var c := snapshot[0];
      var live' := if IsTarget(c, sender, net) && c in net.tcpFailing then RemoveFirst(live, c) else live;
      FanOutTcpWrites(snapshot[1..], live', data, sender, net);
      if IsTarget(c, sender, net) {
        WritesCarryCons(TcpWrite(c, data, c !in net.tcpFailing), FanOutTcp(snapshot[1..], live', data, sender, net).0, data, net);
      }
    }
  }

  lemma WritesCarryCons(x: TcpWrite, rest: seq<TcpWrite>, data: string, net: Transport)
    requires WritesCarry(rest, data, net)
    requires x.data == data && (x.delivered <==> x.to !in net.tcpFailing)
    ensures WritesCarry([x] + rest, data, net)
  {
    var w := [x] + rest;
    assert forall k :: 1 <= k < |w| ==> w[k] == rest[k - 1];
  }

  /** The live list is the same whichever list the broadcast started from,
      as far as the writes go: they depend on the snapshot alone. */
  lemma {:induction false} FanOutTcpIgnoresLive(snapshot: seq<Client>, live1: seq<Client>, live2: seq<Client>, data: string, sender: Client, net: Transport)
    ensures FanOutTcp(snapshot, live1, data, sender, net).0 == FanOutTcp(snapshot, live2, data, sender, net).0
    decreases |snapshot|
  {
    if snapshot != [] {
      var c := snapshot[0];
      var failed := IsTarget(c, sender, net) && c in net.tcpFailing;
      FanOutTcpIgnoresLive(snapshot[1..], if failed then RemoveFirst(live1, c) else live1,
        if failed then RemoveFirst(live2, c) else live2, data, sender, net);
    }
  }

  /** A stream broadcast removes from the live list exactly one entry per
      write that threw, and nothing else; the clients that stay keep their
      order. */
  lemma {:induction false} FanOutTcpRemoves(snapshot: seq<Client>, live: seq<Client>, data: string, sender: Client, net: Transport)
    ensures var f := FanOutTcp(snapshot, live, data, sender, net);
            && multiset(f.1) == multiset(live) - multiset(Undelivered(f.0))
            && IsSubseq(f.1, live)
    decreases |snapshot|
  {
    FanOutTcpKeepsOrder(snapshot, live, data, sender, net);
    if snapshot != [] {
      var c := snapshot[0];
      var failed := IsTarget(c, sender, net) && c in net.tcpFailing;
      var live1 := if failed then RemoveFirst(live, c) else live;
      FanOutTcpRemoves(snapshot[1..], live1, data, sender, net);
      if IsTarget(c, sender, net) {
        var rest := FanOutTcp(snapshot[1..], live1, data, sender, net);
        UndeliveredCons(TcpWrite(c, data, !failed), rest.0);
        if failed {
          RemoveThenRest(live, c, Undelivered(rest.0), rest.1);
        }
      }
    }
  }

  /** Each removal during a stream broadcast is a `List.Remove`, so the
      live list afterwards is the live list before with entries left out
      and the others in their order. */
  lemma {:induction false} FanOutTcpKeepsOrder(snapshot: seq<Client>, live: seq<Client>, data: string, sender: Client, net: Transport)
    ensures IsSubseq(FanOutTcp(snapshot, live, data, sender, net).1, live)
    decreases |snapshot|
  {
    if snapshot == [] {
      SubseqRefl(live);
    } else {
      var c := snapshot[0];
      var failed := IsTarget(c, sender, net) && c in net.tcpFailing;
      var live1 := if failed then RemoveFirst(live, c) else live;
      FanOutTcpKeepsOrder(snapshot[1..], live1, data, sender, net);
      assert FanOutTcp(snapshot, live, data, sender, net).1 == FanOutTcp(snapshot[1..], live1, data, sender, net).1;
      if failed {
        RemoveFirstSubseq(live, c);
        SubseqTrans(FanOutTcp(snapshot[1..], live1, data, sender, net).1, live1, live);
      }
    }
  }

  /** Only targets whose write threw are undelivered. */
  lemma {:induction false} UndeliveredAreFailedTargets(snapshot: seq<Client>, live: seq<Client>, data: string, sender: Client, net: Transport)
    ensures var f := FanOutTcp(snapshot, live, data, sender, net);
            forall c :: c in Undelivered(f.0) ==> IsTarget(c, sender, net) && c in net.tcpFailing
    decreases |snapshot|
  {
    if snapshot != [] {
      var c := snapshot[0];
      var failed := IsTarget(c, sender, net) && c in net.tcpFailing;
      var live1 := if failed then RemoveFirst(live, c) else live;
      UndeliveredAreFailedTargets(snapshot[1..], live1, data, sender, net);
      if IsTarget(c, sender, net) {
        var rest := FanOutTcp(snapshot[1..], live1, data, sender, net);
        UndeliveredCons(TcpWrite(c, data, !failed), rest.0);
      }
    }
  }

  lemma UndeliveredCons(x: TcpWrite, rest: seq<TcpWrite>)
    ensures Undelivered([x] + rest) == (if x.delivered then [] else [x.to]) + Undelivered(rest)
  {
    assert ([x] + rest)[1..] == rest;
  }

  /** Removing `c` and then the clients `u` is removing `[c] + u`. */
  lemma RemoveThenRest(live: seq<Client>, c: Client, u: seq<Client>, live': seq<Client>)
    requires multiset(live') == multiset(RemoveFirst(live, c)) - multiset(u)
    ensures multiset(live') == multiset(live) - multiset([c] + u)
  {
    assert multiset([c] + u) == multiset{c} + multiset(u);
  }

  /** A stream broadcast never removes its sender from the live list. */
  lemma BroadcastKeepsSender(snapshot: seq<Client>, live: seq<Client>, data: string, sender: Client, net: Transport)
    ensures multiset(FanOutTcp(snapshot, live, data, sender, net).1)[sender] == multiset(live)[sender]
  {
    FanOutTcpRemoves(snapshot, live, data, sender, net);
    UndeliveredAreFailedTargets(snapshot, live, data, sender, net);
    assert sender !in Undelivered(FanOutTcp(snapshot, live, data, sender, net).0);
  }

  // ---------------------------------------------------------------------
  // Datagram fan-out (BroadcastUdp)

  /** The loop of `BroadcastUdp` over a snapshot of the endpoints: send to
      each in order until a send throws. The endpoints sent to are the
      longest prefix of the snapshot without a failing endpoint; the
      broadcast completes exactly when no endpoint of the snapshot fails. */
  function FanOutUdp(snapshot: seq<EndPoint>, net: Transport): (r: UdpSend)
    ensures |r.sent| <= |snapshot| && r.sent == snapshot[..|r.sent|]
    ensures forall e :: e in r.sent ==> e !in net.udpFailing
    ensures r.completed ==> r.sent == snapshot
    ensures !r.completed ==> |r.sent| < |snapshot| && snapshot[|r.sent|] in net.udpFailing
    decreases |snapshot|
  {
    if snapshot == [] then UdpSend([], true)
    else if snapshot[0] in net.udpFailing then UdpSend([], false)
    else
      var rest := FanOutUdp(snapshot[1..], net);
      assert snapshot == [snapshot[0]] + snapshot[1..];
      UdpSend([snapshot[0]] + rest.sent, rest.completed)
  }

  // ---------------------------------------------------------------------
  // The connection handler (HandleTcpClient), phase by phase

  /** The state after the handshake part of the handler: the lists, the
      `clientInfo` (None while it is null), the events so far, and whether
      control reaches the read loop (false once an exception was thrown). */
  datatype Opened = Opened(reg: Registry, info: Option<string>, log: seq<Event>, reachesLoop: bool)

  /** The text one read of more than 0 bytes delivers. */
  type Frame = s: string | s != "" witness "."

  /** The result of the `i`th read of a connection whose reads deliver
      `received` and then 0 bytes: "" once the stream has ended. A read
      that throws ends the handler's `try` the same way a read of 0 bytes
      does, so it too is the end of `received`. */
  function ReadAt(received: seq<Frame>, i: nat): string {
    if i < |received| then received[i] else ""
  }

  /** Removing a finished session (the lock block of the handler's
      `finally`): remove the client once from the stream list; then read
      the socket's remote endpoint and remove every endpoint equal to it
      from the endpoint list. When that read throws, the endpoint list is
      left as it was. */
  function RemoveSession(r: Registry, client: Client, net: Transport): Registry {
    var tcpClients := RemoveFirst(r.tcpClients, client);
    if net.closedRemoteThrows then Registry(tcpClients, r.udpEndPoints)
    else Registry(tcpClients, RemoveEndPointsOf(r.udpEndPoints, client.remote))
  }

  function RemoveEndPointsOf(eps: seq<EndPoint>, remote: EndPoint): seq<EndPoint> {
    RemoveAll(eps, (ep: EndPoint) => ep.address == remote.address && ep.port == remote.port)
  }

  /** The first read and the handshake: a read of more than 0 bytes sets
      `clientInfo`; a handshake with a port in range appends the endpoint
      (remote address, port) and announces the new client over datagram;
      a port text `int.Parse` rejects, or a port out of range, throws. */
  function HandshakeStep(r: Registry, client: Client, first: string, net: Transport): Opened {
    if first == "" then Opened(r, None, [], true)
    else
      var info := ClientInfo(client.remote);
      match ParseHandshake(first)
      case NotHandshake => Opened(r, Some(info), [], true)
      case BadPort(_) => Opened(r, Some(info), [], false)
      case Handshake(port, name) =>
        if !IsPort(port) then Opened(r, Some(info), [], false)
        else
          var eps := r.udpEndPoints + [EndPoint(client.remote.address, port)];
          var u := FanOutUdp(eps, net);
          Opened(Registry(r.tcpClients, eps), Some(info), [UdpNotice(ConnectNotice(info, name), u.sent)], u.completed)
  }

  /** The read loop from read `i` on: every non-empty read is broadcast
      over the stream to the other clients; a read of 0 bytes ends it. */
  function RelayFrom(r: Registry, client: Client, received: seq<Frame>, i: nat, net: Transport): (Registry, seq<Event>)
    decreases |received| - i
  {
    if ReadAt(received, i) == "" then (r, [])
    else
      var fan := FanOutTcp(r.tcpClients, r.tcpClients, received[i], client, net);
      var rest := RelayFrom(Registry(fan.1, r.udpEndPoints), client, received, i + 1, net);
      (rest.0, [TcpRelay(received[i], fan.0)] + rest.1)
  }

  /** The number of reads the loop relays from read `i` on. */
  function FrameCount(received: seq<Frame>, i: nat): nat
    decreases |received| - i
  {
    if ReadAt(received, i) == "" then 0 else 1 + FrameCount(received, i + 1)
  }

  /** The handler's `finally`: when `clientInfo` is set, announce the
      departure over datagram to the endpoints as they are before any
      removal, then remove the session; a datagram send that throws ends
      the `finally` before the removal. */
  function TeardownStep(r: Registry, client: Client, info: Option<string>, net: Transport): (Registry, seq<Event>) {
    match info
    case None => (r, [])
    case Some(text) =>
      var u := FanOutUdp(r.udpEndPoints, net);
      var notice := UdpNotice(DisconnectNotice(text), u.sent);
      if u.completed then (RemoveSession(r, client, net), [notice]) else (r, [notice])
  }

  /** The read loop, when control reaches it. */
  function LoopStep(hs: Opened, client: Client, received: seq<Frame>, net: Transport): (Registry, seq<Event>) {
    if hs.reachesLoop then RelayFrom(hs.reg, client, received, 1, net) else (hs.reg, [])
  }

  /** The whole handler for one connection whose reads return `received`,
      with no other handler running in between. */
  function Lifecycle(r: Registry, client: Client, received: seq<Frame>, net: Transport): (Registry, seq<Event>) {
    var hs := HandshakeStep(r, client, ReadAt(received, 0), net);
    var relayed := LoopStep(hs, client, received, net);
    var closed := TeardownStep(relayed.0, client, hs.info, net);
    (closed.0, hs.log + relayed.1 + closed.1)
  }

  // ---------------------------------------------------------------------
  // Properties of the read loop

  /** The read loop leaves the endpoint list alone. */
  lemma {:induction false} RelayKeepsEndPoints(r: Registry, client: Client, received: seq<Frame>, i: nat, net: Transport)
    ensures RelayFrom(r, client, received, i, net).0.udpEndPoints == r.udpEndPoints
    decreases |received| - i
  {
    if ReadAt(received, i) != "" {
      var fan := FanOutTcp(r.tcpClients, r.tcpClients, received[i], client, net);
      RelayKeepsEndPoints(Registry(fan.1, r.udpEndPoints), client, received, i + 1, net);
    }
  }

  /** The read loop only removes stream clients; it never adds one, and
      the clients that stay keep their order. */
  lemma {:induction false} RelayOnlyRemoves(r: Registry, client: Client, received: seq<Frame>, i: nat, net: Transport)
    ensures multiset(RelayFrom(r, client, received, i, net).0.tcpClients) <= multiset(r.tcpClients)
    ensures IsSubseq(RelayFrom(r, client, received, i, net).0.tcpClients, r.tcpClients)
    decreases |received| - i
  {
    if ReadAt(received, i) == "" {
      SubseqRefl(r.tcpClients);
    } else {
      var fan := FanOutTcp(r.tcpClients, r.tcpClients, received[i], client, net);
      var r1 := Registry(fan.1, r.udpEndPoints);
      FanOutTcpRemoves(r.tcpClients, r.tcpClients, received[i], client, net);
      RelayOnlyRemoves(r1, client, received, i + 1, net);
      SubseqTrans(RelayFrom(r1, client, received, i + 1, net).0.tcpClients, fan.1, r.tcpClients);
    }
  }

  /** The read loop never removes the reading client itself. */
  lemma {:induction false} RelayKeepsReader(r: Registry, client: Client, received: seq<Frame>, i: nat, net: Transport)
    ensures multiset(RelayFrom(r, client, received, i, net).0.tcpClients)[client] == multiset(r.tcpClients)[client]
    decreases |received| - i
  {
    if ReadAt(received, i) != "" {
      var fan := FanOutTcp(r.tcpClients, r.tcpClients, received[i], client, net);
      BroadcastKeepsSender(r.tcpClients, r.tcpClients, received[i], client, net);
      RelayKeepsReader(Registry(fan.1, r.udpEndPoints), client, received, i + 1, net);
    }
  }

  /** The read loop relays one frame per read until the first empty one. */
  lemma {:induction false} RelayCountsFrames(r: Registry, client: Client, received: seq<Frame>, i: nat, net: Transport)
    ensures |RelayFrom(r, client, received, i, net).1| == FrameCount(received, i)
    decreases |received| - i
  {
    if ReadAt(received, i) != "" {
      var fan := FanOutTcp(r.tcpClients, r.tcpClients, received[i], client, net);
      RelayCountsFrames(Registry(fan.1, r.udpEndPoints), client, received, i + 1, net);
    }
  }

  /** `log` holds one stream relay per read from read `i` on, in the order
      read, each carrying exactly the data of its read. */
  predicate RelaysFrames(log: seq<Event>, received: seq<Frame>, i: nat) {
    forall k :: 0 <= k < |log| ==>
      log[k].TcpRelay? && ReadAt(received, i + k) != "" && log[k].text == ReadAt(received, i + k)
  }

  lemma RelaysFramesCons(e: Event, rest: seq<Event>, received: seq<Frame>, i: nat)
    requires e.TcpRelay? && ReadAt(received, i) != "" && e.text == ReadAt(received, i)
    requires RelaysFrames(rest, received, i + 1)
    ensures RelaysFrames([e] + rest, received, i)
  {
    var log := [e] + rest;
    forall k | 1 <= k < |log| ensures log[k] == rest[k - 1] && i + k == (i + 1) + (k - 1) {
    }
  }

  /** Every frame read after the handshake is relayed, verbatim and in the
      order read. */
  lemma {:induction false} RelayForwardsFrames(r: Registry, client: Client, received: seq<Frame>, i: nat, net: Transport)
    ensures RelaysFrames(RelayFrom(r, client, received, i, net).1, received, i)
    decreases |received| - i
  {
    if ReadAt(received, i) != "" {
      var fan := FanOutTcp(r.tcpClients, r.tcpClients, received[i], client, net);
      var r1 := Registry(fan.1, r.udpEndPoints);
      RelayForwardsFrames(r1, client, received, i + 1, net);
      RelaysFramesCons(TcpRelay(received[i], fan.0), RelayFrom(r1, client, received, i + 1, net).1, received, i);
    }
  }

  /** No stream write in `log` goes to `client`, and every write carries
      the frame it relays. */
  predicate NoEcho(log: seq<Event>, client: Client) {
    forall k, m :: 0 <= k < |log| && log[k].TcpRelay? && 0 <= m < |log[k].writes| ==>
      log[k].writes[m].to != client && log[k].writes[m].data == log[k].text
  }

  /** A stream broadcast never writes back to its sender, and every write
      carries the broadcast data. */
  lemma FanOutTcpNoEcho(snapshot: seq<Client>, live: seq<Client>, data: string, sender: Client, net: Transport)
    ensures forall m :: 0 <= m < |FanOutTcp(snapshot, live, data, sender, net).0| ==>
              FanOutTcp(snapshot, live, data, sender, net).0[m].to != sender &&
              FanOutTcp(snapshot, live, data, sender, net).0[m].data == data
  {
    FanOutTcpTargets(snapshot, live, data, sender, net);
    FanOutTcpWrites(snapshot, live, data, sender, net);
    var w := FanOutTcp(snapshot, live, data, sender, net).0;
    forall m | 0 <= m < |w| ensures w[m].to != sender {
      assert w[m].to in Recipients(w);
    }
  }

  lemma NoEchoCons(text: string, writes: seq<TcpWrite>, rest: seq<Event>, client: Client)
    requires forall m :: 0 <= m < |writes| ==> writes[m].to != client && writes[m].data == text
    requires NoEcho(rest, client)
    ensures NoEcho([TcpRelay(text, writes)] + rest, client)
  {
    var log := [TcpRelay(text, writes)] + rest;
    assert forall k :: 1 <= k < |log| ==> log[k] == rest[k - 1];
  }

  /** The read loop never sends a client's frame back to that client. */
  lemma {:induction false} RelayNeverEchoes(r: Registry, client: Client, received: seq<Frame>, i: nat, net: Transport)
    ensures NoEcho(RelayFrom(r, client, received, i, net).1, client)
    decreases |received| - i
  {
    if ReadAt(received, i) != "" {
      var fan := FanOutTcp(r.tcpClients, r.tcpClients, received[i], client, net);
      var r1 := Registry(fan.1, r.udpEndPoints);
      RelayNeverEchoes(r1, client, received, i + 1, net);
      FanOutTcpNoEcho(r.tcpClients, r.tcpClients, received[i], client, net);
      NoEchoCons(received[i], fan.0, RelayFrom(r1, client, received, i + 1, net).1, client);
    }
  }

  // ---------------------------------------------------------------------
  // Properties of the handshake, the loop step and the teardown

  /** The handshake never touches the stream list. */
  lemma HandshakeKeepsClients(r: Registry, client: Client, first: string, net: Transport)
    ensures HandshakeStep(r, client, first, net).reg.tcpClients == r.tcpClients
  {
  }

  /** `clientInfo` is set exactly when the first read returned data. */
  lemma HandshakeSetsInfo(r: Registry, client: Client, first: string, net: Transport)
    ensures HandshakeStep(r, client, first, net).info
            == if first == "" then None else Some(ClientInfo(client.remote))
  {
  }

  /** A handshake with a port in range appends the endpoint made of the
      client's remote address and the announced port, and announces the
      client to every endpoint, itself included; the read loop runs when
      that announcement went out to all of them. */
  lemma HandshakeRegisters(r: Registry, client: Client, first: string, net: Transport, port: int, name: string)
    requires ParseHandshake(first) == Handshake(port, name) && IsPort(port)
    ensures var hs := HandshakeStep(r, client, first, net);
            var eps := r.udpEndPoints + [EndPoint(client.remote.address, port)];
            && hs.reg == Registry(r.tcpClients, eps)
            && hs.log == [UdpNotice(ConnectNotice(ClientInfo(client.remote), name), FanOutUdp(eps, net).sent)]
            && hs.reachesLoop == FanOutUdp(eps, net).completed
  {
    assert |first| >= |PORT_PREFIX|;
  }

  /** An empty first read, or a first frame that is not a handshake,
      changes nothing, announces nothing, and goes on to the read loop. */
  lemma HandshakeIgnoresOthers(r: Registry, client: Client, first: string, net: Transport)
    requires first == "" || ParseHandshake(first).NotHandshake?
    ensures HandshakeStep(r, client, first, net).reg == r
    ensures HandshakeStep(r, client, first, net).log == []
    ensures HandshakeStep(r, client, first, net).reachesLoop
  {
  }

  /** A handshake whose port text `int.Parse` rejects, or whose port is
      out of range, registers and announces nothing and ends the `try`
      before the read loop; `clientInfo` is set all the same, so the
      teardown still runs. */
  lemma HandshakeRejects(r: Registry, client: Client, first: string, net: Transport)
    requires ParseHandshake(first).BadPort? ||
             (ParseHandshake(first).Handshake? && !IsPort(ParseHandshake(first).udpPort))
    ensures HandshakeStep(r, client, first, net) == Opened(r, Some(ClientInfo(client.remote)), [], false)
  {
    assert |first| >= |PORT_PREFIX|;
  }

  lemma LoopKeepsEndPoints(hs: Opened, client: Client, received: seq<Frame>, net: Transport)
    ensures LoopStep(hs, client, received, net).0.udpEndPoints == hs.reg.udpEndPoints
  {
    if hs.reachesLoop {
      RelayKeepsEndPoints(hs.reg, client, received, 1, net);
    }
  }

  lemma LoopOnlyRemoves(hs: Opened, client: Client, received: seq<Frame>, net: Transport)
    ensures multiset(LoopStep(hs, client, received, net).0.tcpClients) <= multiset(hs.reg.tcpClients)
    ensures IsSubseq(LoopStep(hs, client, received, net).0.tcpClients, hs.reg.tcpClients)
    ensures multiset(LoopStep(hs, client, received, net).0.tcpClients)[client] == multiset(hs.reg.tcpClients)[client]
  {
    if !hs.reachesLoop {
      SubseqRefl(hs.reg.tcpClients);
    } else {
      RelayOnlyRemoves(hs.reg, client, received, 1, net);
      RelayKeepsReader(hs.reg, client, received, 1, net);
    }
  }

  /** Teardown only removes stream clients, and the others keep their
      order. */
  lemma TeardownOnlyRemoves(r: Registry, client: Client, info: Option<string>, net: Transport)
    ensures multiset(TeardownStep(r, client, info, net).0.tcpClients) <= multiset(r.tcpClients)
    ensures IsSubseq(TeardownStep(r, client, info, net).0.tcpClients, r.tcpClients)
  {
    SubseqRefl(r.tcpClients);
    RemoveFirstSubseq(r.tcpClients, client);
  }

  /** The endpoint removal keeps every endpoint other than `remote`. */
  lemma RemoveEndPointsKeepsOthers(eps: seq<EndPoint>, remote: EndPoint, ep: EndPoint)
    requires ep != remote
    ensures ep in RemoveEndPointsOf(eps, remote) <==> ep in eps
  {
    assert multiset(RemoveEndPointsOf(eps, remote))[ep] == multiset(eps)[ep];
  }

  /** The endpoint removal leaves no endpoint equal to `remote`. */
  lemma RemoveEndPointsDropsRemote(eps: seq<EndPoint>, remote: EndPoint)
    ensures remote !in RemoveEndPointsOf(eps, remote)
  {
    assert multiset(RemoveEndPointsOf(eps, remote))[remote] == 0;
  }

  // ---------------------------------------------------------------------
  // Properties of the whole handler

  /** A connection whose first read returns 0 bytes (or throws) never gets
      its `clientInfo`, and its stream has ended, so its handler changes
      neither list and sends nothing: the client stays in the stream list
      for good. */
  lemma SilentClientStaysListed(r: Registry, client: Client, received: seq<Frame>, net: Transport)
    requires ReadAt(received, 0) == ""
    ensures Lifecycle(r, client, received, net) == (r, [])
  {
    assert received == [];
    var hs := HandshakeStep(r, client, ReadAt(received, 0), net);
    assert hs == Opened(r, None, [], true);
    assert ReadAt(received, 1) == "";
    assert LoopStep(hs, client, received, net) == (r, []);
    assert TeardownStep(r, client, hs.info, net) == (r, []);
    var none: seq<Event> := [];
    assert none + none + none == none;
    assert Lifecycle(r, client, received, net) == (r, none + none + none);
  }

  /** The handler removes stream clients only; it never adds one, and the
      clients that stay keep their order, which is the order of every later
      broadcast's snapshot. */
  lemma LifecycleOnlyRemovesClients(r: Registry, client: Client, received: seq<Frame>, net: Transport)
    ensures multiset(Lifecycle(r, client, received, net).0.tcpClients) <= multiset(r.tcpClients)
    ensures IsSubseq(Lifecycle(r, client, received, net).0.tcpClients, r.tcpClients)
  {
    var hs := HandshakeStep(r, client, ReadAt(received, 0), net);
    var looped := LoopStep(hs, client, received, net);
    HandshakeKeepsClients(r, client, ReadAt(received, 0), net);
    LoopOnlyRemoves(hs, client, received, net);
    TeardownOnlyRemoves(looped.0, client, hs.info, net);
    SubseqTrans(TeardownStep(looped.0, client, hs.info, net).0.tcpClients, looped.0.tcpClients, r.tcpClients);
  }

  /** A stream list that holds each client once keeps doing so through a
      whole handler. */
  lemma LifecycleKeepsNoDup(r: Registry, client: Client, received: seq<Frame>, net: Transport)
    requires NoDup(r.tcpClients)
    ensures NoDup(Lifecycle(r, client, received, net).0.tcpClients)
  {
    LifecycleOnlyRemovesClients(r, client, received, net);
    NoDupShrinks(Lifecycle(r, client, received, net).0.tcpClients, r.tcpClients);
  }

  /** Teardown runs exactly when the first read returned data: the last
      thing the handler sends is then the departure notice. */
  lemma TeardownIffFirstReadNonEmpty(r: Registry, client: Client, received: seq<Frame>, net: Transport)
    ensures var log := Lifecycle(r, client, received, net).1;
            ReadAt(received, 0) != "" <==>
              |log| > 0 && log[|log| - 1].UdpNotice? &&
              log[|log| - 1].text == DisconnectNotice(ClientInfo(client.remote))
  {
    if ReadAt(received, 0) == "" {
      SilentClientStaysListed(r, client, received, net);
    } else {
      DataEndsWithDeparture(r, client, received, net);
    }
  }

  /** After a first read with data the handler ends with the departure
      notice. */
  lemma DataEndsWithDeparture(r: Registry, client: Client, received: seq<Frame>, net: Transport)
    requires ReadAt(received, 0) != ""
    ensures var log := Lifecycle(r, client, received, net).1;
            |log| > 0 && log[|log| - 1].UdpNotice? &&
            log[|log| - 1].text == DisconnectNotice(ClientInfo(client.remote))
  {
    var hs := HandshakeStep(r, client, ReadAt(received, 0), net);
    HandshakeSetsInfo(r, client, ReadAt(received, 0), net);
    var relayed := LoopStep(hs, client, received, net);
    var closed := TeardownStep(relayed.0, client, hs.info, net);
    assert |closed.1| == 1 && closed.1[0].UdpNotice?;
    assert closed.1[0].text == DisconnectNotice(ClientInfo(client.remote));
    assert Lifecycle(r, client, received, net).1 == hs.log + relayed.1 + closed.1;
    LastEvent(hs.log, relayed.1, closed.1);
  }

  /** A first frame that is not a handshake registers nothing and
      announces nothing, yet the connection's later frames are all relayed
      like chat messages; with every datagram send succeeding, its teardown
      then removes the connection once from the stream list, and removes
      every endpoint equal to its stream address and port unless reading
      the closed socket's remote endpoint throws. */
  lemma UnregisteredClientRelays(r: Registry, client: Client, received: seq<Frame>, net: Transport)
    requires ReadAt(received, 0) != "" && ParseHandshake(ReadAt(received, 0)).NotHandshake?
    requires net.udpFailing == {}
    ensures var res := Lifecycle(r, client, received, net);
            var relayed := RelayFrom(r, client, received, 1, net);
            && |res.1| > 0 && res.1[..|res.1| - 1] == relayed.1
            && res.0.tcpClients == RemoveFirst(relayed.0.tcpClients, client)
            && res.0.udpEndPoints
               == if net.closedRemoteThrows then r.udpEndPoints else RemoveEndPointsOf(r.udpEndPoints, client.remote)
  {
    var first := ReadAt(received, 0);
    var info := ClientInfo(client.remote);
    var hs := HandshakeStep(r, client, first, net);
    assert hs == Opened(r, Some(info), [], true);
    var relayed := RelayFrom(r, client, received, 1, net);
    RelayKeepsEndPoints(r, client, received, 1, net);
    assert LoopStep(hs, client, received, net) == relayed;
    var closed := TeardownStep(relayed.0, client, Some(info), net);
    TeardownNotifiesAll(relayed.0, client, info, net);
    assert |closed.1| == 1;
    assert Lifecycle(r, client, received, net) == (closed.0, [] + relayed.1 + closed.1);
    assert ([] + relayed.1 + closed.1)[..|relayed.1|] == relayed.1;
  }

  /** Teardown removes the endpoints equal to the client's STREAM address
      and port, while the handshake stored the client's DATAGRAM port: when
      the two ports differ, or when reading the closed socket's remote
      endpoint throws, the registered endpoint stays in the list after the
      connection is gone, whatever happened in between. */
  lemma OrphanedEndPoint(r: Registry, client: Client, received: seq<Frame>, net: Transport, port: int, name: string)
    requires ParseHandshake(ReadAt(received, 0)) == Handshake(port, name)
    requires IsPort(port) && (port != client.remote.port || net.closedRemoteThrows)
    ensures EndPoint(client.remote.address, port) in Lifecycle(r, client, received, net).0.udpEndPoints
  {
    var first := ReadAt(received, 0);
    var ep := EndPoint(client.remote.address, port);
    var hs := HandshakeStep(r, client, first, net);
    HandshakeRegisters(r, client, first, net, port, name);
    assert ep in hs.reg.udpEndPoints;
    var relayed := LoopStep(hs, client, received, net);
    LoopKeepsEndPoints(hs, client, received, net);
    if !net.closedRemoteThrows {
      RemoveEndPointsKeepsOthers(relayed.0.udpEndPoints, client.remote, ep);
    }
    assert Lifecycle(r, client, received, net).0 == TeardownStep(relayed.0, client, hs.info, net).0;
  }

  /** When reading the closed socket's remote endpoint throws, no handler
      ever removes an endpoint: the list afterwards is the list before,
      followed by the endpoint the handshake registered, if any. */
  lemma EndPointsNeverRemoved(r: Registry, client: Client, received: seq<Frame>, net: Transport)
    requires net.closedRemoteThrows
    ensures r.udpEndPoints <= Lifecycle(r, client, received, net).0.udpEndPoints
    ensures |Lifecycle(r, client, received, net).0.udpEndPoints| <= |r.udpEndPoints| + 1
  {
    var hs := HandshakeStep(r, client, ReadAt(received, 0), net);
    HandshakeAppendsAtMostOne(r, client, ReadAt(received, 0), net);
    var relayed := LoopStep(hs, client, received, net);
    LoopKeepsEndPoints(hs, client, received, net);
    assert TeardownStep(relayed.0, client, hs.info, net).0.udpEndPoints == relayed.0.udpEndPoints;
    assert Lifecycle(r, client, received, net).0 == TeardownStep(relayed.0, client, hs.info, net).0;
  }

  /** The handshake at most appends one endpoint. */
  lemma HandshakeAppendsAtMostOne(r: Registry, client: Client, first: string, net: Transport)
    ensures var eps := HandshakeStep(r, client, first, net).reg.udpEndPoints;
            r.udpEndPoints <= eps && |eps| <= |r.udpEndPoints| + 1
  {
    if first != "" && ParseHandshake(first).Handshake? {
      assert |first| >= |PORT_PREFIX|;
    }
  }

  /** With every datagram send succeeding, a registered client that leaves
      is itself sent the notice of its own departure, because the notice
      goes out to the endpoints before the removal. */
  lemma LeaverHearsOwnDeparture(r: Registry, client: Client, received: seq<Frame>, net: Transport, port: int, name: string)
    requires ParseHandshake(ReadAt(received, 0)) == Handshake(port, name) && IsPort(port)
    requires net.udpFailing == {}
    ensures var log := Lifecycle(r, client, received, net).1;
            && |log| > 0 && log[|log| - 1].UdpNotice?
            && log[|log| - 1].text == DisconnectNotice(ClientInfo(client.remote))
            && EndPoint(client.remote.address, port) in log[|log| - 1].sent
  {
    var first := ReadAt(received, 0);
    var hs := HandshakeStep(r, client, first, net);
    HandshakeRegisters(r, client, first, net, port, name);
    HandshakeSetsInfo(r, client, first, net);
    var relayed := LoopStep(hs, client, received, net);
    LoopKeepsEndPoints(hs, client, received, net);
    assert EndPoint(client.remote.address, port) in relayed.0.udpEndPoints;
    assert hs.info == Some(ClientInfo(client.remote));
    var closed := TeardownStep(relayed.0, client, hs.info, net);
    TeardownNotifiesAll(relayed.0, client, ClientInfo(client.remote), net);
    assert Lifecycle(r, client, received, net).1 == hs.log + relayed.1 + closed.1;
    LastEvent(hs.log, relayed.1, closed.1);
  }

  /** With every datagram send succeeding, the teardown sends the
      departure notice to every endpoint in the list and then removes the
      session. */
  lemma TeardownNotifiesAll(r: Registry, client: Client, info: string, net: Transport)
    requires net.udpFailing == {}
    ensures TeardownStep(r, client, Some(info), net).1 == [UdpNotice(DisconnectNotice(info), r.udpEndPoints)]
    ensures TeardownStep(r, client, Some(info), net).0 == RemoveSession(r, client, net)
  {
  }

  lemma LastEvent(a: seq<Event>, b: seq<Event>, c: seq<Event>)
    requires |c| == 1
    ensures (a + b + c)[|a + b + c| - 1] == c[0]
  {
  }

  /** With every datagram send succeeding, a connection that sent anything
      and appears once in the stream list is gone from it afterwards; unless
      reading the closed socket's remote endpoint throws, no endpoint equal
      to its stream address and port is left either. */
  lemma TeardownRemovesClient(r: Registry, client: Client, received: seq<Frame>, net: Transport)
    requires ReadAt(received, 0) != ""
    requires net.udpFailing == {}
    requires multiset(r.tcpClients)[client] == 1
    ensures client !in Lifecycle(r, client, received, net).0.tcpClients
    ensures !net.closedRemoteThrows ==> client.remote !in Lifecycle(r, client, received, net).0.udpEndPoints
  {
    var first := ReadAt(received, 0);
    var hs := HandshakeStep(r, client, first, net);
    HandshakeKeepsClients(r, client, first, net);
    HandshakeSetsInfo(r, client, first, net);
    LoopOnlyRemoves(hs, client, received, net);
    var relayed := LoopStep(hs, client, received, net);
    assert multiset(relayed.0.tcpClients)[client] == 1;
    var final := RemoveSession(relayed.0, client, net);
    assert Lifecycle(r, client, received, net).0 == final;
    assert multiset(final.tcpClients)[client] == 0;
    RemoveEndPointsDropsRemote(relayed.0.udpEndPoints, client.remote);
  }

  /** With a stream list that holds each client once, as accepting fresh
      connections keeps it, a listed client whose first read returned data
      and whose departure notice went out is gone from the list afterwards. */
  lemma ListedClientRemoved(r: Registry, client: Client, received: seq<Frame>, net: Transport)
    requires ReadAt(received, 0) != ""
    requires net.udpFailing == {}
    requires NoDup(r.tcpClients) && client in r.tcpClients
    ensures client !in Lifecycle(r, client, received, net).0.tcpClients
    ensures !net.closedRemoteThrows ==> client.remote !in Lifecycle(r, client, received, net).0.udpEndPoints
  {
    assert multiset(r.tcpClients)[client] == 1;
    TeardownRemovesClient(r, client, received, net);
  }
}

=== FILE: server.dfy ===
/** `ChatServer`: the two membership lists shared by the connection
    handlers, updated in place. Every method but the constructor and
    `AcceptTcpClient`, which state the new lists directly, is proved against
    the function of `Relay` that specifies it, so the lemmas there hold of
    the class. */
module Server {
  import opened Text
  import opened Lists
  import opened Handshake
  import opened Relay

  class ChatServer {
    /** `_tcpClients`: every accepted connection not yet removed. */
    var tcpClients: seq<Client>
    /** `_udpEndPoints`: the datagram endpoints presence notices go to. */
    var udpEndPoints: seq<EndPoint>

    function State(): Registry
      reads this
    {
      Registry(tcpClients, udpEndPoints)
    }

    /** Every accepted `TcpClient` is a new object and the lists only ever
        lose entries after it joins, so no client is listed twice. */
    ghost predicate Valid()
      reads this
    {
      NoDup(tcpClients)
    }

    constructor ()
      ensures Valid()
      ensures tcpClients == [] && udpEndPoints == []
    {
      tcpClients := [];
      udpEndPoints := [];
    }

    /** One turn of the accept loop: the new connection, a client not
        listed before, joins the stream list before its handler starts. */
    method AcceptTcpClient(client: Client)
      requires Valid() && client !in tcpClients
      modifies this
      ensures Valid()
      ensures tcpClients == old(tcpClients) + [client]
      ensures udpEndPoints == old(udpEndPoints)
    {
      assert multiset(tcpClients + [client]) == multiset(tcpClients) + multiset{client};
      tcpClients := tcpClients + [client];
    }

    /** Write `message` to every other connected client of a snapshot of
        the stream list; a client whose write throws is removed from the
        live list. */
    method BroadcastTcp(message: string, sender: Client, net: Transport) returns (writes: seq<TcpWrite>)
      requires Valid()
      modifies this
      ensures Valid()
      ensures (writes, tcpClients) == FanOutTcp(old(tcpClients), old(tcpClients), message, sender, net)
      ensures udpEndPoints == old(udpEndPoints)
      ensures NoDup(Recipients(writes))
    {
      var clientsCopy := tcpClients;
      writes := [];
      var i := 0;
      while i < |clientsCopy|
        invariant 0 <= i <= |clientsCopy|
        invariant udpEndPoints == old(udpEndPoints)
        invariant FanOutTcp(clientsCopy, clientsCopy, message, sender, net).0
                  == writes + FanOutTcp(clientsCopy[i..], tcpClients, message, sender, net).0
        invariant FanOutTcp(clientsCopy, clientsCopy, message, sender, net).1
                  == FanOutTcp(clientsCopy[i..], tcpClients, message, sender, net).1
      {
        var client := clientsCopy[i];
        assert clientsCopy[i..][1..] == clientsCopy[i + 1..];
        ghost var live := tcpClients;
        if client != sender && client in net.connected {
          var delivered := client !in net.tcpFailing;
          if !delivered {
            tcpClients := RemoveFirst(tcpClients, client);
          }
          ghost var rest := FanOutTcp(clientsCopy[i + 1..], tcpClients, message, sender, net);
          assert FanOutTcp(clientsCopy[i..], live, message, sender, net)
                 == ([TcpWrite(client, message, delivered)] + rest.0, rest.1);
          assert writes + ([TcpWrite(client, message, delivered)] + rest.0)
                 == (writes + [TcpWrite(client, message, delivered)]) + rest.0;
          writes := writes + [TcpWrite(client, message, delivered)];
        } else {
          assert FanOutTcp(clientsCopy[i..], live, message, sender, net)
                 == FanOutTcp(clientsCopy[i + 1..], live, message, sender, net);
        }
        i := i + 1;
      }
      assert FanOutTcp(clientsCopy[i..], tcpClients, message, sender, net) == ([], tcpClients);
      assert writes + [] == writes;
      FanOutTcpRemoves(clientsCopy, clientsCopy, message, sender, net);
      NoDupShrinks(tcpClients, clientsCopy);
      FanOutTcpAtMostOnce(clientsCopy, clientsCopy, message, sender, net);
    }

    /** Send to every endpoint of a snapshot of the endpoint list, in
        order; a send that throws ends the broadcast (`completed` false). */
    method BroadcastUdp(net: Transport) returns (sent: seq<EndPoint>, completed: bool)
      ensures UdpSend(sent, completed) == FanOutUdp(udpEndPoints, net)
    {
      var endpointsCopy := udpEndPoints;
      sent := [];
      completed := true;
      var i := 0;
      while i < |endpointsCopy|
        invariant 0 <= i <= |endpointsCopy|
        invariant FanOutUdp(endpointsCopy, net).sent == sent + FanOutUdp(endpointsCopy[i..], net).sent
        invariant FanOutUdp(endpointsCopy, net).completed == FanOutUdp(endpointsCopy[i..], net).completed
      {
        var endpoint := endpointsCopy[i];
        assert endpointsCopy[i..][1..] == endpointsCopy[i + 1..];
        if endpoint in net.udpFailing {
          completed := false;
          return;
        }
        ghost var rest := FanOutUdp(endpointsCopy[i + 1..], net);
        assert FanOutUdp(endpointsCopy[i..], net) == UdpSend([endpoint] + rest.sent, rest.completed);
        assert sent + ([endpoint] + rest.sent) == (sent + [endpoint]) + rest.sent;
        sent := sent + [endpoint];
        i := i + 1;
      }
      assert endpointsCopy[i..] == [];
    }

    /** The lock block of the handler's `finally`: the endpoint removal
        only happens when reading the socket's remote endpoint does not
        throw. */
    method RemoveSession(client: Client, net: Transport)
      requires Valid()
      modifies this
      ensures Valid()
      ensures State() == Relay.RemoveSession(old(State()), client, net)
    {
      NoDupShrinks(RemoveFirst(tcpClients, client), tcpClients);
      tcpClients := RemoveFirst(tcpClients, client);
      if !net.closedRemoteThrows {
        udpEndPoints := RemoveEndPointsOf(udpEndPoints, client.remote);
      }
    }

    /** The first read and the handshake: sets `clientInfo` when the read
        returned data, registers and announces a handshake with a port in
        range; `reachesLoop` is false when an exception ends the `try`. */
    method OpenSession(client: Client, first: string, net: Transport)
      returns (clientInfo: Option<string>, log: seq<Event>, reachesLoop: bool)
      modifies this
      ensures Opened(State(), clientInfo, log, reachesLoop) == HandshakeStep(old(State()), client, first, net)
    {
      log := [];
      clientInfo := None;
      reachesLoop := true;
      if first != "" {
        clientInfo := Some(ClientInfo(client.remote));
        match ParseHandshake(first)
        case NotHandshake =>
        case BadPort(_) =>
          reachesLoop := false;
        case Handshake(udpPort, name) =>
          if !IsPort(udpPort) {
            reachesLoop := false;
          } else {
            udpEndPoints := udpEndPoints + [EndPoint(client.remote.address, udpPort)];
            var sent, completed := BroadcastUdp(net);
            log := [UdpNotice(ConnectNotice(clientInfo.value, name), sent)];
            reachesLoop := completed;
          }
      }
    }

    /** The read loop: broadcast every read from read 1 on until a read
        returns 0 bytes. */
    method RelayLoop(client: Client, received: seq<Frame>, net: Transport) returns (relayed: seq<Event>)
      requires Valid()
      modifies this
      ensures Valid()
      ensures (State(), relayed) == RelayFrom(old(State()), client, received, 1, net)
    {
      relayed := [];
      var i := 1;
      while ReadAt(received, i) != ""
        invariant 1 <= i
        invariant Valid()
        invariant RelayFrom(old(State()), client, received, 1, net).0 == RelayFrom(State(), client, received, i, net).0
        invariant RelayFrom(old(State()), client, received, 1, net).1 == relayed + RelayFrom(State(), client, received, i, net).1
        decreases |received| - i
      {
        ghost var before := State();
        var writes := BroadcastTcp(received[i], client, net);
        ghost var rest := RelayFrom(State(), client, received, i + 1, net);
        assert RelayFrom(before, client, received, i, net)
               == (rest.0, [TcpRelay(received[i], writes)] + rest.1);
        assert relayed + ([TcpRelay(received[i], writes)] + rest.1)
               == (relayed + [TcpRelay(received[i], writes)]) + rest.1;
        relayed := relayed + [TcpRelay(received[i], writes)];
        i := i + 1;
      }
      assert RelayFrom(State(), client, received, i, net) == (State(), []);
      assert relayed + [] == relayed;
    }

    /** The `finally`: when `clientInfo` is set, announce the departure,
        then remove the session unless a send threw. */
    method CloseSession(client: Client, clientInfo: Option<string>, net: Transport) returns (log: seq<Event>)
      requires Valid()
      modifies this
      ensures Valid()
      ensures (State(), log) == TeardownStep(old(State()), client, clientInfo, net)
    {
      log := [];
      if clientInfo.Some? {
        var sent, completed := BroadcastUdp(net);
        log := [UdpNotice(DisconnectNotice(clientInfo.value), sent)];
        if completed {
          RemoveSession(client, net);
        }
      }
    }

    /** The handler of one connection whose reads return `received`. */
    method HandleTcpClient(client: Client, received: seq<Frame>, net: Transport) returns (log: seq<Event>)
      requires Valid()
      modifies this
      ensures Valid()
      ensures (State(), log) == Lifecycle(old(State()), client, received, net)
    {
      ghost var start := State();
      var clientInfo, opening, reachesLoop := OpenSession(client, ReadAt(received, 0), net);
      HandshakeKeepsClients(start, client, ReadAt(received, 0), net);
      ghost var hs := Opened(State(), clientInfo, opening, reachesLoop);
      var relayed: seq<Event> := [];
      if reachesLoop {
        relayed := RelayLoop(client, received, net);
      }
      assert LoopStep(hs, client, received, net) == (State(), relayed);
      var closing := CloseSession(client, clientInfo, net);
      log := opening + relayed + closing;
    }
  }
}

=== FILE: text.dfy ===
/** The string and integer primitives of the .NET runtime that the chat
    relay relies on: ordinal prefix tests, `String.Split` with a single
    string separator, `int.Parse`/`int.TryParse` with the default
    `NumberStyles.Integer`, `Int32.ToString()` and unchecked 32-bit
    increment. */
module Text {

  datatype Option<T> = None | Some(value: T)

  const INT32_MIN: int := -0x8000_0000
  const INT32_MAX: int := 0x7FFF_FFFF

  predicate IsInt32(n: int) {
    INT32_MIN <= n <= INT32_MAX
  }

  /** The value of `n` after C#'s unchecked (wrapping) conversion to `int`. */
  function Wrap32(n: int): (r: int)
    ensures IsInt32(r)
    ensures (r - n) % 0x1_0000_0000 == 0
    ensures IsInt32(n) ==> r == n
  {
    (n - INT32_MIN) % 0x1_0000_0000 + INT32_MIN
  }

  /** Ordinal `s.StartsWith(prefix)`. */
  predicate StartsWith(s: string, prefix: string) {
    |prefix| <= |s| && s[..|prefix|] == prefix
  }

  /** `pat` occurs in `s` at index `j`. */
  predicate MatchAt(s: string, pat: string, j: int) {
    0 <= j && j + |pat| <= |s| && s[j..j + |pat|] == pat
  }

  /** Ordinal `s.IndexOf(pat, from)`: the leftmost occurrence at or after
      `from`. */
  function IndexFrom(s: string, pat: string, from: nat): (r: Option<nat>)
    requires |pat| > 0
    ensures r.Some? ==> from <= r.value && MatchAt(s, pat, r.value)
    ensures r.Some? ==> forall j :: from <= j < r.value ==> !MatchAt(s, pat, j)
    ensures r.None? ==> forall j :: from <= j ==> !MatchAt(s, pat, j)
    decreases |s| - from
  {
    if |s| < from + |pat| then None
    else if MatchAt(s, pat, from) then Some(from)
    else IndexFrom(s, pat, from + 1)
  }

  /** Ordinal `s.IndexOf(pat)`. */
  function IndexOf(s: string, pat: string): (r: Option<nat>)
    requires |pat| > 0
    ensures r.Some? ==> MatchAt(s, pat, r.value)
    ensures r.Some? ==> forall j :: 0 <= j < r.value ==> !MatchAt(s, pat, j)
    ensures r.None? ==> forall j :: !MatchAt(s, pat, j)
  {
    IndexFrom(s, pat, 0)
  }

  /** The leftmost occurrence is at `k` as soon as there is one at `k` and
      none before it. */
  lemma IndexOfIs(s: string, pat: string, k: nat)
    requires |pat| > 0
    requires MatchAt(s, pat, k)
    requires forall j :: 0 <= j < k ==> !MatchAt(s, pat, j)
    ensures IndexOf(s, pat) == Some(k)
  {
  }

  lemma NoMatchNone(t: string, pat: string)
    requires |pat| > 0
    requires forall j :: !MatchAt(t, pat, j)
    ensures IndexOf(t, pat).None?
  {
  }

  /** Nothing before the leftmost occurrence contains the pattern. */
  lemma NoMatchBefore(s: string, pat: string, i: nat)
    requires |pat| > 0
    requires IndexOf(s, pat) == Some(i)
    ensures IndexOf(s[..i], pat).None?
  {
    var t := s[..i];
    forall j ensures !MatchAt(t, pat, j) {
      if 0 <= j && j + |pat| <= i {
        assert t[j..j + |pat|] == s[j..j + |pat|];
        assert !MatchAt(s, pat, j);
      }
    }
    NoMatchNone(t, pat);
  }

  /** An occurrence inside a prefix is an occurrence in the whole string. */
  lemma MatchInPrefix(a: string, b: string, pat: string, j: int)
    requires MatchAt(a, pat, j)
    ensures MatchAt(a + b, pat, j)
  {
    assert (a + b)[j..j + |pat|] == a[j..j + |pat|];
  }

  /** `Join(parts, sep)` is `String.Join(sep, parts)`. */
  function Join(parts: seq<string>, sep: string): string
    requires |parts| > 0
  {
    if |parts| == 1 then parts[0] else parts[0] + sep + Join(parts[1..], sep)
  }

  /** `s.Split(new[] { sep }, StringSplitOptions.None)`: cut `s` at every
      occurrence of `sep` found scanning left to right. Joining the parts
      back with `sep` gives `s`, and no part contains `sep`. */
  function Split(s: string, sep: string): (parts: seq<string>)
    requires |sep| > 0
    ensures |parts| > 0
    ensures Join(parts, sep) == s
    ensures forall k :: 0 <= k < |parts| ==> IndexOf(parts[k], sep).None?
    ensures |parts| == 1 <==> IndexOf(s, sep).None?
    ensures forall k :: 0 <= k < |parts| - 1 ==> IndexOf(parts[k] + sep, sep) == Some(|parts[k]|)
    decreases |s|
  {
    match IndexOf(s, sep)
    case None => [s]
    case Some(i) =>
      var rest := Split(s[i + |sep|..], sep);
      var head := s[..i];
      assert s == head + sep + s[i + |sep|..];
      NoMatchBefore(s, sep, i);
      FirstInPrefix(s, sep, i);
      assert s[..i + |sep|] == head + sep;
      LeftmostCons(head, rest, sep);
      [head] + rest
  }

  /** Each part but the last ends where the first separator after it
      starts; this carries over from `rest` to `[head] + rest`. */
  lemma LeftmostCons(head: string, rest: seq<string>, sep: string)
    requires |sep| > 0
    requires IndexOf(head + sep, sep) == Some(|head|)
    requires forall k :: 0 <= k < |rest| - 1 ==> IndexOf(rest[k] + sep, sep) == Some(|rest[k]|)
    ensures forall k :: 0 <= k < |[head] + rest| - 1 ==>
              IndexOf(([head] + rest)[k] + sep, sep) == Some(|([head] + rest)[k]|)
  {
    var parts := [head] + rest;
    forall k | 1 <= k < |parts| - 1
      ensures IndexOf(parts[k] + sep, sep) == Some(|parts[k]|)
    {
      assert parts[k] == rest[k - 1];
    }
  }

  /** The leftmost occurrence is also the leftmost one in the prefix that
      ends with it. */
  lemma FirstInPrefix(s: string, pat: string, i: nat)
    requires |pat| > 0
    requires IndexOf(s, pat) == Some(i)
    ensures IndexOf(s[..i + |pat|], pat) == Some(i)
  {
    var p := s[..i + |pat|];
    assert p + s[i + |pat|..] == s;
    assert p[i..i + |pat|] == s[i..i + |pat|];
    forall j | 0 <= j < i ensures !MatchAt(p, pat, j) {
      if MatchAt(p, pat, j) {
        MatchInPrefix(p, s[i + |pat|..], pat, j);
      }
    }
    IndexOfIs(p, pat, i);
  }

  /** Splitting `a + sep + b` where the separator after `a` is the first one
      and `b` holds none gives exactly the two parts `a` and `b`. */
  lemma SplitInTwo(a: string, b: string, sep: string)
    requires |sep| > 0
    requires IndexOf(a + sep + b, sep) == Some(|a|)
    requires IndexOf(b, sep).None?
    ensures Split(a + sep + b, sep) == [a, b]
  {
    var s := a + sep + b;
    assert s[..|a|] == a;
    assert s[|a| + |sep|..] == b;
  }

  /** The first occurrence in a prefix is the first occurrence in the whole. */
  lemma IndexOfExtend(a: string, b: string, pat: string)
    requires |pat| > 0
    requires IndexOf(a, pat).Some?
    ensures IndexOf(a + b, pat) == IndexOf(a, pat)
  {
    var k := IndexOf(a, pat).value;
    MatchInPrefix(a, b, pat, k);
    forall j | 0 <= j < k ensures !MatchAt(a + b, pat, j) {
      if MatchAt(a + b, pat, j) {
        assert (a + b)[j..j + |pat|] == a[j..j + |pat|];
        assert MatchAt(a, pat, j);
      }
    }
    IndexOfIs(a + b, pat, k);
  }

  // ---------------------------------------------------------------------
  // Integers as text

  predicate IsDigit(c: char) {
    '0' <= c <= '9'
  }

  predicate AllDigits(s: string) {
    forall i :: 0 <= i < |s| ==> IsDigit(s[i])
  }

  /** The white space that `NumberStyles.AllowLeadingWhite` and
      `AllowTrailingWhite` skip: U+0009 to U+000D and U+0020. */
  predicate IsWhite(c: char) {
    c == ' ' || '\t' <= c <= '\r'
  }

  function DigitValue(c: char): nat
    requires IsDigit(c)
  {
    c as int - '0' as int
  }

  function DigitChar(d: nat): (c: char)
    requires d < 10
    ensures IsDigit(c) && DigitValue(c) == d
  {
    ('0' as int + d) as char
  }

  /** The value of a decimal digit string, most significant digit first. */
  function DigitsValue(s: string): nat
    requires AllDigits(s)
    decreases |s|
  {
    if s == [] then 0 else DigitsValue(s[..|s| - 1]) * 10 + DigitValue(s[|s| - 1])
  }

  /** The shortest decimal digits of `n`. */
  function NatToDigits(n: nat): (r: string)
    ensures |r| > 0 && AllDigits(r)
    ensures DigitsValue(r) == n
    ensures |r| == 1 || r[0] != '0'
    decreases n
  {
    if n < 10 then [DigitChar(n)]
    else
      var high := NatToDigits(n / 10);
      var r := high + [DigitChar(n % 10)];
      assert r[..|r| - 1] == high;
      assert |high| == 1 ==> DigitsValue(high) == DigitValue(high[0]) by {
        if |high| == 1 {
          assert high[..0] == [];
        }
      }
      r
  }

  /** `n.ToString()` for an `int`, with "-" as the negative sign. */
  function IntToString(n: int): (r: string)
    ensures |r| > 0
    ensures IsDigit(r[0]) || r[0] == '-'
    ensures forall i :: 0 < i < |r| ==> IsDigit(r[i])
    ensures r[0] == '-' <==> n < 0
  {
    if n < 0 then "-" + NatToDigits(-n) else NatToDigits(n)
  }

  /** The text of `n` is a sign exactly for negative numbers, then the
      shortest decimal digits of the magnitude: no leading zero and no
      "-0". */
  lemma IntToStringValue(n: int)
    ensures var r := IntToString(n);
            && (n >= 0 ==> AllDigits(r) && DigitsValue(r) == n && (|r| == 1 || r[0] != '0'))
            && (n < 0 ==> |r| > 1 && AllDigits(r[1..]) && DigitsValue(r[1..]) == -n && r[1] != '0')
  {
    if n < 0 {
      assert IntToString(n)[1..] == NatToDigits(-n);
    }
  }

  /** `s` with leading white space removed. */
  function TrimStart(s: string): (r: string)
    ensures |r| <= |s| && r == s[|s| - |r|..]
    ensures forall i :: 0 <= i < |s| - |r| ==> IsWhite(s[i])
    ensures r == [] || !IsWhite(r[0])
    decreases |s|
  {
    if s != [] && IsWhite(s[0]) then TrimStart(s[1..]) else s
  }

  /** `s` with trailing white space removed. */
  function TrimEnd(s: string): (r: string)
    ensures |r| <= |s| && r == s[..|r|]
    ensures forall i :: |r| <= i < |s| ==> IsWhite(s[i])
    ensures r == [] || !IsWhite(r[|r| - 1])
    decreases |s|
  {
    if s != [] && IsWhite(s[|s| - 1]) then TrimEnd(s[..|s| - 1]) else s
  }

  /** `int.Parse(s)` (None where it throws a FormatException or an
      OverflowException) and equally `int.TryParse(s, out v)` (None where
      it returns false): optional white space, an optional sign, one or
      more decimal digits, optional white space, and a value that fits an
      `int`. */
  function ParseInt32(s: string): (r: Option<int>)
    ensures r.Some? ==> IsInt32(r.value)
    ensures TrimStart(s) == [] ==> r.None?
  {
    ParseSignedDigits(TrimEnd(TrimStart(s)))
  }

  /** A plain run of decimal digits whose value fits an `int` parses to
      that value. */
  lemma ParseDigits(s: string)
    requires |s| > 0 && AllDigits(s) && IsInt32(DigitsValue(s))
    ensures ParseInt32(s) == Some(DigitsValue(s))
  {
    assert !IsWhite(s[0]) && !IsWhite(s[|s| - 1]);
    assert TrimStart(s) == s;
    assert TrimEnd(s) == s;
  }

  /** An optional sign followed by one or more decimal digits, in range. */
  function ParseSignedDigits(t: string): (r: Option<int>)
    ensures r.Some? ==> IsInt32(r.value)
  {
    var negative := |t| > 0 && t[0] == '-';
    var digits := if |t| > 0 && (t[0] == '-' || t[0] == '+') then t[1..] else t;
    if |digits| == 0 || !AllDigits(digits) then None
    else
      var v: int := if negative then -(DigitsValue(digits) as int) else DigitsValue(digits);
      if IsInt32(v) then Some(v) else None
  }

  predicate AllWhite(s: string) {
    forall i :: 0 <= i < |s| ==> IsWhite(s[i])
  }

  /** Leading white space in front of a text that starts with a non-white
      character is exactly what `TrimStart` cuts off. */
  lemma {:induction false} TrimStartSkips(w: string, x: string)
    requires AllWhite(w) && x != [] && !IsWhite(x[0])
    ensures TrimStart(w + x) == x
    decreases |w|
  {
    if w == [] {
      assert w + x == x;
    } else {
      assert (w + x)[0] == w[0];
      assert (w + x)[1..] == w[1..] + x;
      TrimStartSkips(w[1..], x);
    }
  }

  /** Trailing white space after a text that ends with a non-white
      character is exactly what `TrimEnd` cuts off. */
  lemma {:induction false} TrimEndSkips(x: string, w: string)
    requires AllWhite(w) && x != [] && !IsWhite(x[|x| - 1])
    ensures TrimEnd(x + w) == x
    decreases |w|
  {
    if w == [] {
      assert x + w == x;
    } else {
      var s := x + w;
      assert s[|s| - 1] == w[|w| - 1];
      assert s[..|s| - 1] == x + w[..|w| - 1];
      TrimEndSkips(x, w[..|w| - 1]);
    }
  }

  /** The value `int.Parse` reads from white space, an optional sign, one
      or more decimal digits and white space: the signed value of the
      digits, and none (an `OverflowException`) when it does not fit an
      `int`. */
  lemma ParseSignedText(w1: string, sign: string, d: string, w2: string)
    requires AllWhite(w1) && AllWhite(w2)
    requires sign == "" || sign == "-" || sign == "+"
    requires |d| > 0 && AllDigits(d)
    ensures var v := if sign == "-" then -(DigitsValue(d) as int) else DigitsValue(d);
            ParseInt32(w1 + sign + d + w2) == if IsInt32(v) then Some(v) else None
  {
    SignedEnds(sign, d);
    Regroup(w1, sign, d, w2);
    TrimmedText(w1, sign + d, w2);
    SignedDigits(sign, d);
  }

  /** An optional sign and digits neither start nor end with white space. */
  lemma SignedEnds(sign: string, d: string)
    requires sign == "" || sign == "-" || sign == "+"
    requires |d| > 0 && AllDigits(d)
    ensures var t := sign + d; t != [] && !IsWhite(t[0]) && !IsWhite(t[|t| - 1])
  {
    var t := sign + d;
    assert t[0] == if sign == "" then d[0] else sign[0];
    assert t[|t| - 1] == d[|d| - 1];
  }

  /** `int.Parse` trims the white space around a text that neither starts
      nor ends with white space, and reads the rest. */
  lemma TrimmedText(w1: string, t: string, w2: string)
    requires AllWhite(w1) && AllWhite(w2)
    requires t != [] && !IsWhite(t[0]) && !IsWhite(t[|t| - 1])
    ensures ParseInt32(w1 + (t + w2)) == ParseSignedDigits(t)
  {
    assert (t + w2)[0] == t[0];
    TrimStartSkips(w1, t + w2);
    TrimEndSkips(t, w2);
  }

  lemma Regroup(a: string, b: string, c: string, e: string)
    ensures a + b + c + e == a + ((b + c) + e)
  {
  }

  /** An optional sign and its digits read as the signed value, when that
      fits an `int`. */
  lemma SignedDigits(sign: string, d: string)
    requires sign == "" || sign == "-" || sign == "+"
    requires |d| > 0 && AllDigits(d)
    ensures var v := if sign == "-" then -(DigitsValue(d) as int) else DigitsValue(d);
            ParseSignedDigits(sign + d) == if IsInt32(v) then Some(v) else None
  {
    if sign == "" {
      assert sign + d == d;
      UnsignedDigits(d);
    } else {
      assert sign + d == [sign[0]] + d;
      SignCharDigits(sign[0], d);
    }
  }

  lemma UnsignedDigits(d: string)
    requires |d| > 0 && AllDigits(d)
    ensures ParseSignedDigits(d) == if IsInt32(DigitsValue(d)) then Some(DigitsValue(d) as int) else None
  {
    assert IsDigit(d[0]);
  }

  lemma SignCharDigits(c: char, d: string)
    requires c == '-' || c == '+'
    requires |d| > 0 && AllDigits(d)
    ensures var v := if c == '-' then -(DigitsValue(d) as int) else DigitsValue(d);
            ParseSignedDigits([c] + d) == if IsInt32(v) then Some(v) else None
  {
    var t := [c] + d;
    assert t[0] == c;
    assert t[1..] == d;
    var n: int := DigitsValue(t[1..]);
    var v: int := if c == '-' then -n else n;
    assert ParseSignedDigits(t) == if IsInt32(v) then Some(v) else None;
  }

  /** A digit run whose value exceeds `int.MaxValue` makes `int.Parse`
      throw an OverflowException. */
  lemma RejectsOverflow(s: string)
    requires |s| > 0 && AllDigits(s) && DigitsValue(s) > INT32_MAX
    ensures ParseInt32(s) == None
  {
    assert !IsWhite(s[0]) && !IsWhite(s[|s| - 1]);
    assert TrimStart(s) == s;
    assert TrimEnd(s) == s;
    UnsignedDigits(s);
  }

  /** A character that is neither white space, a digit nor a sign makes
      `int.Parse` throw a `FormatException`, wherever it stands. */
  lemma RejectsStrayChar(s: string, i: nat)
    requires i < |s|
    requires !IsWhite(s[i]) && !IsDigit(s[i]) && s[i] != '+' && s[i] != '-'
    ensures ParseInt32(s) == None
  {
    var r := TrimStart(s);
    assert i >= |s| - |r|;
    var k := i - (|s| - |r|);
    assert r[k] == s[i];
    var t := TrimEnd(r);
    assert k < |t|;
    assert t[k] == s[i];
    var signed := t[0] == '-' || t[0] == '+';
    var digits := if signed then t[1..] else t;
    var j := if signed then k - 1 else k;
    assert 0 <= j < |digits| && digits[j] == s[i];
  }

  /** Conversely, a text `int.Parse` accepts is white space around an
      optional sign and one or more decimal digits. */
  lemma ParseAcceptsOnlySignedDigits(s: string)
    requires ParseInt32(s).Some?
    ensures var t := TrimEnd(TrimStart(s));
            && |t| > 0
            && (AllDigits(t) || (|t| > 1 && (t[0] == '-' || t[0] == '+') && AllDigits(t[1..])))
  {
  }

  /** Formatting an `int` and parsing it back gives the same `int`. */
  lemma ParseFormatRoundTrip(n: int)
    requires IsInt32(n)
    ensures ParseInt32(IntToString(n)) == Some(n)
  {
    var s := IntToString(n);
    assert TrimStart(s) == s;
    assert !IsWhite(s[|s| - 1]);
    assert TrimEnd(s) == s;
    if n < 0 {
      assert s[1..] == NatToDigits(-n);
    }
  }

  /** A blank before the number does not change what `int.Parse` reads. */
  lemma LeadingSpaceIgnored(s: string)
    ensures ParseInt32(" " + s) == ParseInt32(s)
  {
    assert (" " + s)[1..] == s;
    assert TrimStart(" " + s) == TrimStart(s);
  }

  /** Distinct `int`s have distinct texts. */
  lemma IntToStringDistinct(m: int, n: int)
    requires IsInt32(m) && IsInt32(n) && m != n
    ensures IntToString(m) != IntToString(n)
  {
    ParseFormatRoundTrip(m);
    ParseFormatRoundTrip(n);
  }
}
